=== FILE: README.md ===
# SQLiteDb schema patching, modelled in Dafny

This project models the core of `SQLiteDb`, a small wrapper around an
embedded SQLite database. The wrapper opens the database file (read-only or
read-write), applies fixed tuning directives, and brings the schema up to
date by running a list of versioned patches. The installed version is kept
in a `db_version` ledger table that is created lazily with a row for
version 0. Before patching, the wrapper copies the database file to a
time-stamped backup. It removes the backup once every pending patch has
been applied, and leaves it in place when something fails.

The model is purely functional. Every operation takes the observable state
and returns a `Step(state, result)`, where the result is `Ok(value)` or
`Err(error)`.

- `outcomes.dfy` (`Outcomes`): `Option`, `Result`, `Step` and the error kinds.
- `database.dfy` (`Database`): the database file as the wrapper sees it.
  This is the set of table names, the ledger's `version` column in insertion
  order, and every statement execution the database has accepted other than
  the ledger's own `create table` and `insert`. It also holds the SQLite
  engine as an oracle that says which statements compile and which
  executions it rejects. Single statements and batch transactions are
  modelled here.
- `ledger.dfy` (`Ledger`): reading the installed version, which creates the
  ledger when it is missing, and recording a version.
- `patches.dfy` (`Patches`): patches, the stable sort by version and the
  "newer than installed" filter.
- `backups.dfy` (`Backups`): creating and removing a backup. The file system
  is an oracle that supplies the clock reading and says whether copy and
  unlink succeed.
- `runner.dfy` (`PatchRunner`): `checkPatches` and what it guarantees on
  success, on failure and on a re-run.
- `sqlitedb.dfy` (`SQLiteDb`): the constructor's defaults, the connection,
  `initDb`, the statement operations, the public version read and `closeDb`.
- `scenarios.dfy` (`Scenarios`): concrete runs mirroring the repository's
  tests. A fresh file is patched to version 1. It is then reopened with
  versions 1 and 2. A patch fails on a fresh file. A batch contains a
  rejected row.

### Behaviour of the code that the model keeps

- A backup is taken whenever some patch is pending, including on a fresh
  file whose installed version is 0 (src/index.ts:219-224).
  `Scenarios.FailedPatchKeepsBackup` shows the backup left behind after a
  failed first patch.
- A failure to remove the backup after every patch was applied is
  re-raised from `initDb` (src/index.ts:252 and 253-261,
  src/backupDb.ts:21-28). `PatchRunner.CheckPatchesFailed` covers this as
  its third case.
- Failures are re-raised unchanged: the engine's error, the ledger insert's
  error or the file system's error (src/index.ts:244-249 and 253-262). The
  backup path is only logged.
- There is no state field. The connection is either not yet opened
  (`this.db` undefined), open or closed (`SQLiteDb.Conn`). Statements,
  batches and version reads fail without an open connection. `closeDb`
  fails only when no connection was ever opened, and closing a closed
  connection succeeds. `initDb` opens a new connection whatever the state.
- Tuning directives are one of two fixed lists, chosen by mode
  (src/index.ts:77-87).

## Model

| member | source | states |
|---|---|---|
| Database.CreatedLedgerIsFound | src/index.ts:9-18 | after the ledger table is created as `db_version`, the existence check (a case-insensitive `lower(name) = 'db_version'` catalog query) finds it |
| Database.MixedCaseLedgerIsFound | src/index.ts:9-10 | the existence check matches the whole name without regard to ASCII case: `DB_Version` is the ledger, `db_versions` is not |
| Database.RunStatement | src/index.ts:112-121 | a statement succeeds exactly when it compiles and the engine accepts the execution; on success exactly that execution is added, and on failure the database is unchanged |
| Database.RunAll | src/index.ts:231-236 | statements run in listed order and stop at the first failure. The run succeeds exactly when the engine compiles and accepts every statement after the ones before it; then the whole list is kept. A failure at statement `k` keeps exactly the statements before `k` and re-raises the engine's refusal of statement `k` (`PrepareFailed` or `RunFailed`); tables and ledger are untouched |
| Database.AcceptsAllAppend | src/index.ts:231-236 | running two lists one after the other is accepted exactly when the first is accepted and the second is accepted after it |
| Database.Transaction | src/index.ts:137-146 | a batch succeeds exactly when the statement compiles and the engine accepts every bound row after the rows before it; then every execution is kept in order. On failure the database is exactly as before and the error is `PrepareFailed` when the statement does not compile and `RunFailed` otherwise |
| Ledger.MaxOf | src/index.ts:27-30 | `max(version)` of a non-empty ledger is one of its rows and bounds every row |
| Ledger.MaxVersion | src/index.ts:27-30 | the installed version is the ledger's maximum, and 0 when the ledger has no rows (NULL compares as 0 in the filter) |
| Ledger.MaxVersionAfterAppend | src/index.ts:27-30 | appending versions that all exceed the installed version makes the largest appended one the installed version |
| Ledger.SetDbVersion | src/index.ts:175-187 | recording a version succeeds exactly when the handle is writable, the ledger exists and the version is not yet recorded (the primary key); it appends exactly that version and keeps versions distinct. Otherwise nothing changes and the error names the first reason in that order (`ReadonlyVersion`, `NoLedgerTable`, `VersionTaken`) |
| Ledger.GetPatchVersion | src/index.ts:189-206 | with the ledger present it returns the maximum and changes nothing. With the ledger absent and a writable handle it creates the ledger with the single row 0 and returns 0. With a read-only handle the engine refuses to create the table and nothing changes. It never removes rows and keeps the database well formed |
| Patches.Insert | src/index.ts:216 | inserting into a sorted list gives a sorted permutation of the list plus the patch |
| Patches.SortByVersion | src/index.ts:216 | sorting gives a permutation of the patches in ascending version order |
| Patches.InsertIsStable | src/index.ts:216 | an inserted patch goes in front of every patch of the same version, and the other patches of each version keep their order |
| Patches.SortIsStable | src/index.ts:216 | the sort is stable: for every version, the patches with that version appear in the same order as configured |
| Patches.SortKeepsDistinct | src/index.ts:216 | sorting keeps pairwise distinct versions distinct |
| Patches.SortSortedIsIdentity | src/index.ts:216 | sorting an already ascending list returns it unchanged |
| Patches.SortedUnique | src/index.ts:216 | two ascending lists that hold the same patches, where a version names one patch, are equal |
| Patches.SortIgnoresInputOrder | src/index.ts:216 | any two arrangements of the same patches, where a version names one patch, sort to the same list |
| Patches.Applicable | src/index.ts:217 | the filter keeps every copy of each patch newer than the installed version and no other patch. For each newer version its patches stay in their list order, a sorted list stays sorted, and distinct versions stay distinct |
| Backups.CreateBackup | src/backupDb.ts:4-19 | a backup succeeds exactly when the copy does. It is stored at `<dir>/bkp-<time>.sqlite`, holds the current database and returns that path; a failed copy creates nothing and is re-raised as a copy failure on that path |
| Backups.RemoveBackup | src/backupDb.ts:21-28 | removal succeeds exactly when the file exists and the unlink works, and removes only that file; a failure is re-raised as an unlink failure on that path and changes nothing |
| Backups.CreateThenRemove | src/index.ts:224-252 | a backup created and then removed leaves every other backup as it was |
| PatchRunner.ApplyOne | src/index.ts:228-243 | a patch succeeds exactly when the engine accepts all its statements in order, the handle is writable, the ledger exists and the version is new; its version is recorded only after all its statements ran. On failure the ledger is unchanged and either a statement was refused, with only the statements before it kept and the engine's error raised, or all statements ran and the ledger insert's error is raised |
| PatchRunner.ApplyPatches | src/index.ts:226-250 | the patch loop only appends to the ledger and the executions, never changes tables, and keeps the database well formed |
| PatchRunner.ApplyPatchesSucceeded | src/index.ts:226-250 | a successful loop records the versions of the newer patches in list order and ran exactly their statements, patch by patch |
| PatchRunner.ApplyPatchesAccepted | src/index.ts:226-250 | conversely, a read-write loop over newer patches with distinct, not yet recorded versions, on a database with a ledger, succeeds when the engine accepts all their statements in order |
| PatchRunner.ApplyStopsAtFailure | src/index.ts:226-250 | a failing loop stops inside some patch `n`. Patches before `n` are recorded and ran completely, a prefix of patch `n` ran, nothing after it was attempted, and the error raised is the refusal that stopped patch `n` |
| PatchRunner.FailureLeavesLedgerBelow | src/index.ts:226-250 | for ascending, distinct pending versions, a failure in patch `n` (with the error that stopped it) leaves every recorded version below patch `n`'s version |
| PatchRunner.Pending | src/index.ts:215-217 | the pending list is ascending, and holds every copy of each configured patch newer than the installed version and nothing else |
| PatchRunner.PendingOfDistinct | src/index.ts:215-217 | distinct configured versions give distinct pending versions |
| PatchRunner.PatchWithBackup | src/index.ts:224-252 | backing up, patching and removing the backup only appends to the ledger and executions, keeps the database well formed, and touches no backup other than the new one |
| PatchRunner.CheckPatches | src/index.ts:208-263 | `checkPatches` only appends to the ledger and executions, keeps the database well formed, and touches no backup other than its own |
| PatchRunner.ReadBeforePatching | src/index.ts:213 | whenever the version read succeeds, whatever happens to the patches afterwards, it yields the maximum of the ledger that the patches then run against |
| PatchRunner.CheckPatchesSucceeded | src/index.ts:213-252 | on success the ledger gains the pending versions in ascending order and exactly the pending statements ran. No backup remains: none was taken if nothing was pending, and the one taken was removed |
| PatchRunner.PatchWithBackupSucceeded | src/index.ts:224-252 | a successful backed-up run records every pending version, runs every pending statement and removes its backup |
| PatchRunner.CheckPatchesAccepted | src/index.ts:208-263 | conversely, a read-write `checkPatches` on a well-formed database succeeds when configured versions are distinct, the file system copies and unlinks, and the engine accepts the pending statements in order |
| PatchRunner.CheckPatchesFailed | src/index.ts:224-262 | a failure is one of three cases. (a) Nothing ran, no backup exists, and the error is the read-only ledger creation or the backup copy. (b) A patch failed part-way: the backup of the pre-patch database is kept, earlier patches are recorded, the error is the refusal that stopped the failing patch, and for distinct versions every recorded version is below the failing one. (c) All patches were applied but the backup could not be removed, and that unlink failure is raised |
| PatchRunner.PatchedCoversAll | src/index.ts:215-238 | after the pending versions are appended, no configured patch is newer than the installed version |
| PatchRunner.CheckPatchesRerunIsNoOp | src/index.ts:213-222 | running `checkPatches` again after it succeeded changes nothing and succeeds, whatever the engine and file system would do |
| PatchRunner.CheckPatchesReachesNewest | src/index.ts:213-252 | after success the installed version is the newest configured version if some patch was newer, and otherwise is unchanged |
| PatchRunner.CheckPatchesIgnoresOrder | src/index.ts:215-217 | where a version names one patch, the order in which patches are configured does not change the outcome |
| PatchRunner.ApplicableOfOlder | src/index.ts:217 | the filter is empty when no patch is newer |
| PatchRunner.NothingPending | src/index.ts:215-222 | nothing is pending when no configured patch is newer than the installed version |
| PatchRunner.ApplicableOfNewer | src/index.ts:217 | the filter keeps a list whose patches are all newer unchanged |
| SQLiteDb.Construct | src/index.ts:53-71 | `readonly` defaults to true and the backup directory to the temporary directory. A read-only wrapper drops its patches; a writable one keeps them |
| SQLiteDb.InitDbConn | src/index.ts:40-51 | opening fails exactly for a read-only wrapper over a missing file. Otherwise the connection is open, and a missing file is created empty |
| SQLiteDb.InitDb | src/index.ts:73-98 | a read-only wrapper over a missing file fails and changes nothing. Otherwise the connection is open with the mode's directives. The ledger is only ever extended. Without patches the call succeeds and leaves the file and backups untouched |
| SQLiteDb.RunStatement | src/index.ts:112-130 | without an open connection a statement is refused and nothing changes. On an open connection it is forwarded to the engine: it succeeds exactly when the statement compiles and the engine accepts the execution, adding exactly that execution, and a failure re-raises the engine's refusal and changes nothing |
| SQLiteDb.TransactionalPreparedStatement | src/index.ts:132-151 | a read-only wrapper refuses a batch before anything else, and a writable one without an open connection refuses it too. On an open writable connection the batch commits exactly when the statement compiles and the engine accepts every row after the rows before it, keeping every bound execution in order; otherwise it raises the prepare or run error and leaves everything as it was |
| SQLiteDb.PatchVersion | src/index.ts:189-206 | without an open connection the read is refused. On an open connection with a ledger it returns the ledger's maximum and changes nothing. Without a ledger, a writable wrapper creates it with the single row 0 and returns 0, and a read-only one fails with the engine's refusal. The ledger is never shortened |
| SQLiteDb.CloseDb | src/index.ts:265-267 | closing fails exactly when the wrapper never connected, and then changes nothing; otherwise the wrapper is closed and nothing else changes |
| SQLiteDb.ReadonlyInitNeverWrites | src/index.ts:65-91 | a wrapper constructed read-only never changes the file or backups during `initDb`, whatever patches were given, and succeeds exactly when the file exists |
| SQLiteDb.InitDbFailureIsRunnerFailure | src/index.ts:73-98 | once the connection is open, `initDb` fails only when there are patches, and then it fails with the patch run's own error and keeps that run's file and backups. So a patch that fails leaves its backup in place, and the error reaches the caller |
| SQLiteDb.InitDbAccepted | src/index.ts:89-91 | a writable wrapper whose patches have distinct versions succeeds when the file system can copy and unlink and the engine accepts every pending patch script in order |
| SQLiteDb.InitDbTwiceIsNoOp | src/index.ts:73-98 | a second `initDb` after a successful one changes nothing and succeeds |
| SQLiteDb.InitDbReachesNewest | src/index.ts:89-91 | after a successful `initDb` with patches, the installed version is the newest configured one if some patch was newer, and otherwise the version found on opening |
| SQLiteDb.ClosedRefusesOperations | src/index.ts:112-151 | a closed wrapper refuses statements, batches and version reads and changes nothing |
| Scenarios.FreshLedger | src/index.ts:196-200 | reading the version of a fresh file creates the ledger with the single row 0 and returns 0 |
| Scenarios.FreshFileReachesVersionOne | test/patches.test.ts:8-60 | a fresh file patched with version 1 ends with ledger rows 0 and 1, the patch's statement run once, and no backup |
| Scenarios.ReopenAppliesOnlyVersionTwo | test/patches.test.ts:62-123 | reopening with versions 1 and 2 runs only version 2's two statements, in order, and adds the ledger row 2 |
| Scenarios.FailedPatchKeepsBackup | src/index.ts:219-249 | a first patch failing on a fresh file re-raises the engine error and leaves the ledger at row 0. The backup taken at version 0 stays on disk with the pre-patch content |
| Scenarios.RejectedRowRollsBackBatch | test/preparedStatements.test.ts:153-168 | a batch whose last row is rejected re-raises the error and leaves no row of the batch behind |

## Left out

- Statement results are not modelled. `queryRow` and `queryRows` (src/index.ts:153-173) return rows the model does not represent. The engine oracle decides the outcome of every statement the wrapper runs for callers and patches. `insertRow` is `runStatement` with the same arguments and has no separate member.
- Tuning directives are modelled only as the fixed list chosen by mode. What they do to the engine is not modelled, and a failing directive is not modelled either.
- Logging (`logMessage`, `logError`, the `log` option) is left out because it has no effect on state.
- The `pragmas` option (test/pragmas.test.ts:15) and the `logInfos`/`logErrors` options (test/version.test.ts:26-27) that tests pass are not in the constructor's type (src/types.ts:6-12), so the model has no such options.
- `async`/`await` is flattened to sequential steps, since the wrapper awaits every step in order.
- The `installed` timestamp column and the clock reading behind the backup name are left out. The stamp is a parameter supplied by the file system oracle.
- Versions are integers. The ledger column is `real`, so fractional versions are not modelled.
- `path.resolve` and the existence check on the resolved path are reduced to whether the file is present.
- SQLite's parsing and constraint checks are replaced by the engine oracle. Patch statements change only the execution record. The table set changes only through the ledger creation.
- The in-place sort is modelled as sorting a copy. For the wrapper's own later runs this makes no difference, because the sort is stable and sorting a sorted list changes nothing (`Patches.SortSortedIsIdentity`).
- Ledger.GetPatchVersion: the catalog query (src/index.ts:191), the `create table` (src/index.ts:198) and the `max(version)` query (src/index.ts:193) do not go through the engine oracle; only the read-only refusal to create the table is modelled, so an engine failure of these statements is not.
- Ledger.SetDbVersion: the ledger `insert` (src/index.ts:181) does not go through the engine oracle; it fails only for the modelled reasons (read-only, no ledger table, version already recorded).
- SQLiteDb.InitDbConn: opening the connection (`new BetterSqlite3`, src/index.ts:50) is modelled as always succeeding except for a read-only wrapper over a missing file; other open failures, such as a missing directory or an unreadable file, are not modelled.
- Backups.BackupPath: `path.resolve` of the backup directory (src/backupDb.ts:8-9) is not applied; the path is the directory as given followed by `/bkp-<time>.sqlite`.
- The wrapper stores the caller's patch array by reference (src/index.ts:69) and sorts it in place (src/index.ts:216). The caller therefore sees the array reordered, and a later `push` by the caller (test/patches.test.ts:62-69) changes what the next `initDb` applies. The model's configuration holds a copy of the list taken at construction, so this aliasing is not modelled.
- Opening a second connection from `initDb` without closing the first is modelled as replacing the connection. The leaked handle is not modelled.
- SQLiteDb.PatchVersion: returns 0 where the source returns `null` for a ledger table with no rows, because the patch filter compares `null` as 0.
- SQLiteDb.CloseDb: closing a wrapper that never connected is modelled as an error, where the source throws a type error from an undefined handle.
- Test helpers (`test/utils/getDbPath.ts`) are not part of this model.

=== FILE: backups.dfy ===
/** File-level backups of the database, taken before patching. The file
    system is an oracle: it supplies the clock reading that names the copy
    and says whether copying and unlinking succeed. Live backups are a map
    from path to the database content the copy holds. */
module Backups {
  import opened Outcomes
  import opened Database

  /** What the file system contributes: the current time in milliseconds,
      as text, and whether a copy or an unlink succeeds. */
  datatype FileSystem = FileSystem(stamp: string, canCopy: bool, canUnlink: bool)

  type BackupSet = map<string, Store>

  /** `<backupDir>/bkp-<time>.sqlite`. */
  function BackupPath(dir: string, stamp: string): string {
    dir + "/bkp-" + stamp + ".sqlite"
  }

  /** `createBackup`: copy the database file under a time-stamped name in
      the backup directory and return that name; a failed copy is re-raised
      and creates nothing. */
  function CreateBackup(source: Store, backups: BackupSet, dir: string, fs: FileSystem): (r: Step<BackupSet, string>)
    ensures r.result.Ok? <==> fs.canCopy
    ensures r.result.Ok? ==> r.result.value == BackupPath(dir, fs.stamp)
    ensures r.result.Ok? ==> r.state == backups[BackupPath(dir, fs.stamp) := source]
    ensures r.result.Err? ==> r.state == backups && r.result.error == BackupCopyFailed(BackupPath(dir, fs.stamp))
  {
    var path := BackupPath(dir, fs.stamp);
    if fs.canCopy then Step(backups[path := source], Ok(path))
    else Step(backups, Err(BackupCopyFailed(path)))
  }

  /** `removeBackup`: unlink one backup; unlinking a missing file, or a
      failing unlink, is re-raised and removes nothing. */
  function RemoveBackup(backups: BackupSet, path: string, fs: FileSystem): (r: Step<BackupSet, ()>)
    ensures r.result.Ok? <==> fs.canUnlink && path in backups
    ensures r.result.Ok? ==> r.state == backups - {path}
    ensures r.result.Err? ==> r.state == backups && r.result.error == BackupUnlinkFailed(path)
  {
    if fs.canUnlink && path in backups then Step(backups - {path}, Ok(()))
    else Step(backups, Err(BackupUnlinkFailed(path)))
  }

  /** A backup created and then removed leaves every other backup as it was. */
  lemma CreateThenRemove(source: Store, backups: BackupSet, dir: string, fs: FileSystem)
    requires fs.canCopy && fs.canUnlink
    ensures var c := CreateBackup(source, backups, dir, fs);
            RemoveBackup(c.state, c.result.value, fs) == Step(backups - {BackupPath(dir, fs.stamp)}, Ok(()))
  {
    var path := BackupPath(dir, fs.stamp);
    assert backups[path := source] - {path} == backups - {path};
  }
}

=== FILE: database.dfy ===
/** The database file as the wrapper observes it, and the SQLite engine as an
    oracle. Nothing about SQL itself is modelled: a statement is text, the
    engine decides whether it compiles and whether an execution of it is
    accepted, and an accepted execution is remembered in order. */
module Database {
  import opened Outcomes

  /** One execution of a statement with its bound values (rendered as text). */
  datatype Run = Run(sql: string, args: seq<string>)

  /** The engine: which statements compile, and which executions it rejects
      given every execution the database has accepted before. */
  datatype Engine = Engine(prepares: string -> bool, rejects: (seq<Run>, Run) -> bool)

  /** The content of one database file: the names of its tables, the
      `version` column of the ledger table in insertion order, and every
      other statement execution the database has accepted, in order. */
  datatype Store = Store(tables: set<string>, ledger: seq<int>, applied: seq<Run>)

  /** The ledger table's name as the wrapper creates it and looks for it. */
  const LedgerTable: string := "db_version"

  /** The file SQLite creates when a read-write connection opens a missing path. */
  const EmptyStore: Store := Store({}, [], [])

  /** SQLite's built-in `lower()`, which folds ASCII letters only. */
  function Lower(c: char): char {
    if 'A' <= c <= 'Z' then (c as int + 32) as char else c
  }

  function LowerStr(s: string): (r: string)
    ensures |r| == |s|
  {
    seq(|s|, i requires 0 <= i < |s| => Lower(s[i]))
  }

  /** The catalog query that decides whether the ledger exists: some table
      whose lower-cased name is `db_version`. */
  predicate HasLedgerTable(tables: set<string>) {
    exists t :: t in tables && LowerStr(t) == LedgerTable
  }

  predicate Distinct(l: seq<int>) {
    forall i, j :: 0 <= i < j < |l| ==> l[i] != l[j]
  }

  /** What every database file satisfies: the ledger's versions are pairwise
      distinct (they are its primary key) and there are no ledger rows
      without a ledger table. */
  predicate Wf(s: Store) {
    Distinct(s.ledger) && (!HasLedgerTable(s.tables) ==> s.ledger == [])
  }

  /** Creating the ledger table makes the catalog query find it. */
  lemma CreatedLedgerIsFound(tables: set<string>)
    ensures HasLedgerTable(tables + {LedgerTable})
  {
    var t := LedgerTable;
    assert t in tables + {LedgerTable};
    assert LowerStr(t) == LedgerTable by {
      forall i | 0 <= i < |t|
        ensures LowerStr(t)[i] == t[i]
      {
        assert !('A' <= t[i] <= 'Z');
      }
    }
  }

  /** The catalog query ignores the case of ASCII letters and matches the
      whole name: a table created as `DB_Version` is the ledger, one named
      `db_versions` is not. */
  lemma MixedCaseLedgerIsFound()
    ensures HasLedgerTable({"DB_Version"})
    ensures !HasLedgerTable({"db_versions"})
  {
    var t := "DB_Version";
    assert t in {t};
    assert LowerStr(t) == LedgerTable by {
      forall i | 0 <= i < |t|
        ensures LowerStr(t)[i] == LedgerTable[i]
      {
        assert Lower(t[i]) == LedgerTable[i];
      }
    }
    assert |LowerStr("db_versions")| != |LedgerTable|;
  }

  /** Statements run without bound values, as the patch runner runs them. */
  function Bare(stmts: seq<string>): (r: seq<Run>)
    ensures |r| == |stmts|
  {
    seq(|stmts|, i requires 0 <= i < |stmts| => Run(stmts[i], []))
  }

  /** One statement bound to each parameter set of a batch, in order. */
  function Bound(sql: string, params: seq<seq<string>>): (r: seq<Run>)
    ensures |r| == |params|
  {
    seq(|params|, i requires 0 <= i < |params| => Run(sql, params[i]))
  }

  /** The engine refuses `run` after `history` with error `e`: a statement
      that does not compile fails when it is prepared, one that compiles
      fails when the engine rejects the execution. */
  predicate Refused(eng: Engine, history: seq<Run>, run: Run, e: Error) {
    || (!eng.prepares(run.sql) && e == PrepareFailed(run.sql))
    || (eng.prepares(run.sql) && eng.rejects(history, run) && e == RunFailed(run.sql))
  }

  /** Prepare and run one statement. SQLite runs a single statement
      atomically: a failed one leaves the database as it was. */
  function RunStatement(s: Store, eng: Engine, run: Run): (r: Step<Store, ()>)
    ensures r.result.Ok? <==> eng.prepares(run.sql) && !eng.rejects(s.applied, run)
    ensures r.result.Ok? ==> r.state == s.(applied := s.applied + [run])
    ensures r.result.Err? ==> r.state == s && Refused(eng, s.applied, run, r.result.error)
  {
    if !eng.prepares(run.sql) then Step(s, Err(PrepareFailed(run.sql)))
    else if eng.rejects(s.applied, run) then Step(s, Err(RunFailed(run.sql)))
    else Step(s.(applied := s.applied + [run]), Ok(()))
  }

  /** Every execution of `runs` compiles and is accepted when run after
      `history` and the executions before it. */
  predicate AcceptsAll(eng: Engine, history: seq<Run>, runs: seq<Run>) {
    forall k :: 0 <= k < |runs| ==> eng.prepares(runs[k].sql) && !eng.rejects(history + runs[..k], runs[k])
  }

  /** Starting from `history`, the executions of `runs` before position
      `k` were accepted, leaving `after`, and the one at `k` was refused
      with error `e`. */
  predicate StoppedAt(eng: Engine, history: seq<Run>, runs: seq<Run>, after: seq<Run>, e: Error) {
    var k := |after| - |history|;
    && 0 <= k < |runs|
    && after == history + runs[..k]
    && Refused(eng, after, runs[k], e)
  }

  lemma AcceptsAllStep(eng: Engine, history: seq<Run>, runs: seq<Run>)
    requires |runs| > 0
    ensures AcceptsAll(eng, history, runs) <==>
              && eng.prepares(runs[0].sql) && !eng.rejects(history, runs[0])
              && AcceptsAll(eng, history + [runs[0]], runs[1..])
  {
    assert runs[..0] == [] && history + [] == history;
    forall k | 1 <= k < |runs|
      ensures history + runs[..k] == (history + [runs[0]]) + runs[1..][..k - 1]
      ensures runs[k] == runs[1..][k - 1]
    {
      assert runs[..k] == [runs[0]] + runs[1..][..k - 1];
    }
    if AcceptsAll(eng, history, runs) {
      forall k | 0 <= k < |runs[1..]|
        ensures eng.prepares(runs[1..][k].sql) && !eng.rejects((history + [runs[0]]) + runs[1..][..k], runs[1..][k])
      {
        assert 1 <= k + 1 < |runs|;
      }
    }
    if && eng.prepares(runs[0].sql) && !eng.rejects(history, runs[0])
       && AcceptsAll(eng, history + [runs[0]], runs[1..]) {
      forall k | 0 <= k < |runs|
        ensures eng.prepares(runs[k].sql) && !eng.rejects(history + runs[..k], runs[k])
      {
        if k > 0 {
          assert 0 <= k - 1 < |runs[1..]|;
        }
      }
    }
  }

  /** Accepting a concatenation is accepting its first part and then,
      after it, the second. */
  lemma AcceptsAllAppend(eng: Engine, history: seq<Run>, a: seq<Run>, b: seq<Run>)
    ensures AcceptsAll(eng, history, a + b) <==> AcceptsAll(eng, history, a) && AcceptsAll(eng, history + a, b)
  {
    forall k | 0 <= k < |a|
      ensures (a + b)[..k] == a[..k] && (a + b)[k] == a[k]
    {
    }
    forall k | 0 <= k < |b|
      ensures history + (a + b)[..|a| + k] == (history + a) + b[..k] && (a + b)[|a| + k] == b[k]
    {
      assert (a + b)[..|a| + k] == a + b[..k];
    }
    if AcceptsAll(eng, history, a) && AcceptsAll(eng, history + a, b) {
      forall k | 0 <= k < |a + b|
        ensures eng.prepares((a + b)[k].sql) && !eng.rejects(history + (a + b)[..k], (a + b)[k])
      {
        if k >= |a| {
          assert 0 <= k - |a| < |b|;
        }
      }
    }
    if AcceptsAll(eng, history, a + b) {
      forall k | 0 <= k < |b|
        ensures eng.prepares(b[k].sql) && !eng.rejects((history + a) + b[..k], b[k])
      {
        assert 0 <= |a| + k < |a + b|;
      }
    }
  }

  /** Run executions one after another, stopping at the first failure and
      re-raising it. What ran before the failure stays. */
  function RunAll(s: Store, eng: Engine, runs: seq<Run>): (r: Step<Store, ()>)
    ensures r.state.tables == s.tables && r.state.ledger == s.ledger
    ensures s.applied <= r.state.applied <= s.applied + runs
    ensures r.result.Ok? <==> r.state.applied == s.applied + runs
    ensures r.result.Ok? <==> AcceptsAll(eng, s.applied, runs)
    ensures r.result.Err? ==> StoppedAt(eng, s.applied, runs, r.state.applied, r.result.error)
    decreases |runs|
  {
    if |runs| == 0 then Step(s, Ok(()))
    else
      var first := RunStatement(s, eng, runs[0]);
      AcceptsAllStep(eng, s.applied, runs);
      if first.result.Err? then
        StoppedAtHead(eng, s.applied, runs, first.result.error);
        first
      else
        var rest := RunAll(first.state, eng, runs[1..]);
        assert s.applied + runs == first.state.applied + runs[1..];
        if rest.result.Err? then
          StoppedAtLater(eng, s.applied, runs, rest.state.applied, rest.result.error);
          rest
        else rest
  }

  lemma StoppedAtHead(eng: Engine, history: seq<Run>, runs: seq<Run>, e: Error)
    requires |runs| > 0 && Refused(eng, history, runs[0], e)
    ensures StoppedAt(eng, history, runs, history, e)
  {
    assert runs[..0] == [] && history + [] == history;
  }

  /** A refusal at position `k` of the tail, after the head ran, is a
      refusal at position `k + 1` of the whole list. */
  lemma StoppedAtLater(eng: Engine, history: seq<Run>, runs: seq<Run>, after: seq<Run>, e: Error)
    requires |runs| > 0
    requires StoppedAt(eng, history + [runs[0]], runs[1..], after, e)
    ensures StoppedAt(eng, history, runs, after, e)
  {
    var k := |after| - |history + [runs[0]]|;
    assert runs[..k + 1] == [runs[0]] + runs[1..][..k];
    assert runs[1..][k] == runs[k + 1];
  }

  /** A batch: one statement run for each parameter set inside a single
      transaction. Either every execution is kept or, on the first
      failure, the transaction is rolled back and the error re-raised. */
  function Transaction(s: Store, eng: Engine, sql: string, params: seq<seq<string>>): (r: Step<Store, ()>)
    ensures r.result.Ok? ==> r.state == s.(applied := s.applied + Bound(sql, params))
    ensures r.result.Err? ==> r.state == s
    ensures r.result.Ok? <==> eng.prepares(sql) && AcceptsAll(eng, s.applied, Bound(sql, params))
    ensures r.result.Err? ==> r.result.error == (if eng.prepares(sql) then RunFailed(sql) else PrepareFailed(sql))
  {
    if !eng.prepares(sql) then Step(s, Err(PrepareFailed(sql)))
    else
      var batch := RunAll(s, eng, Bound(sql, params));
      if batch.result.Err? then Step(s, batch.result) else batch
  }
}

=== FILE: ledger.dfy ===
/** The version ledger: the `db_version` table, created lazily with a row for
    version 0 and only ever appended to. The installed version is the largest
    version it records. */
module Ledger {
  import opened Outcomes
  import opened Database

  /** The largest element of a non-empty ledger. */
  function MaxOf(l: seq<int>): (m: int)
    requires |l| > 0
    ensures m in l
    ensures forall x :: x in l ==> x <= m
    decreases |l|
  {
    if |l| == 1 then l[0]
    else
      var rest := MaxOf(l[1..]);
      assert l == [l[0]] + l[1..];
      if l[0] > rest then l[0] else rest
  }

  /** `select max(version) from db_version`. On an empty table the query
      yields NULL, and the only use of it, `patch.version > version`,
      compares NULL as 0; so an empty ledger reads as version 0. */
  function MaxVersion(l: seq<int>): (v: int)
    ensures |l| == 0 ==> v == 0
    ensures |l| > 0 ==> v in l && forall x :: x in l ==> x <= v
  {
    if |l| == 0 then 0 else MaxOf(l)
  }

  /** Any value of the ledger that bounds every row and is one of them is
      the ledger's maximum. */
  lemma MaxVersionUnique(l: seq<int>, m: int)
    requires m in l
    requires forall x :: x in l ==> x <= m
    ensures MaxVersion(l) == m
  {
  }

  /** Appending versions that all exceed the current maximum of a non-empty
      ledger makes the largest appended one the new maximum. */
  lemma MaxVersionAfterAppend(l: seq<int>, added: seq<int>)
    requires |added| > 0
    requires forall x :: x in added ==> x > MaxVersion(l)
    ensures MaxVersion(l + added) == MaxOf(added)
  {
    var m := MaxOf(added);
    assert m in l + added;
    forall x | x in l + added
      ensures x <= m
    {
      if x in l {
        assert x <= MaxVersion(l);
        assert added[0] in added;
      }
    }
    MaxVersionUnique(l + added, m);
  }

  /** The error a refused ledger insert raises: read-only mode is checked
      first, then the missing table, then the primary key. */
  function LedgerRefusal(tables: set<string>, readonly: bool, version: int): Error {
    if readonly then ReadonlyVersion
    else if !HasLedgerTable(tables) then NoLedgerTable
    else VersionTaken(version)
  }

  /** `setDbVersion`: refuse in read-only mode, otherwise insert one ledger
      row. The insert fails when the table is missing or when the version is
      already recorded (it is the primary key). */
  function SetDbVersion(s: Store, readonly: bool, version: int): (r: Step<Store, ()>)
    ensures r.result.Ok? <==> !readonly && HasLedgerTable(s.tables) && version !in s.ledger
    ensures r.result.Ok? ==> r.state == s.(ledger := s.ledger + [version])
    ensures r.result.Err? ==> r.state == s && r.result.error == LedgerRefusal(s.tables, readonly, version)
    ensures Wf(s) ==> Wf(r.state)
  {
    if readonly then Step(s, Err(ReadonlyVersion))
    else if !HasLedgerTable(s.tables) then Step(s, Err(NoLedgerTable))
    else if version in s.ledger then Step(s, Err(VersionTaken(version)))
    else
      var l := s.ledger + [version];
      assert Distinct(s.ledger) ==> Distinct(l) by {
        if Distinct(s.ledger) {
          forall i, j | 0 <= i < j < |l|
            ensures l[i] != l[j]
          {
            if j == |s.ledger| {
              assert l[i] in s.ledger;
            }
          }
        }
      }
      Step(s.(ledger := l), Ok(()))
  }

  /** `getPatchVersion`: when the catalog has no ledger table, create it and
      record version 0; otherwise read the largest recorded version. */
  function GetPatchVersion(s: Store, readonly: bool): (r: Step<Store, int>)
    ensures s.ledger <= r.state.ledger
    ensures r.state.applied == s.applied
    ensures HasLedgerTable(s.tables) ==> r == Step(s, Ok(MaxVersion(s.ledger)))
    ensures !HasLedgerTable(s.tables) && readonly ==> r == Step(s, Err(ReadonlyEngine))
    ensures !HasLedgerTable(s.tables) && !readonly && Wf(s) ==>
              r.result == Ok(0) && r.state.ledger == [0] && HasLedgerTable(r.state.tables)
    ensures Wf(s) ==> Wf(r.state)
    ensures Wf(s) && r.result.Ok? ==> HasLedgerTable(r.state.tables) && r.result.value == MaxVersion(r.state.ledger)
  {
    if HasLedgerTable(s.tables) then Step(s, Ok(MaxVersion(s.ledger)))
    else if readonly then Step(s, Err(ReadonlyEngine))
    else
      var created := s.(tables := s.tables + {LedgerTable});
      CreatedLedgerIsFound(s.tables);
      var w := SetDbVersion(created, readonly, 0);
      if w.result.Err? then Step(w.state, Err(w.result.error)) else Step(w.state, Ok(0))
  }
}

=== FILE: outcomes.dfy ===
/** Errors the database wrapper raises, and the shape of one step of it:
    the state it leaves behind together with a value or the error it raised.
    Every step of the wrapper can leave effects behind when it fails (a
    ledger table created before a later failure, a backup left in place),
    so a step always returns a state, successful or not. */
module Outcomes {

  datatype Option<+T> = None | Some(value: T)

  datatype Error =
    /** opening a database in read-only mode whose file does not exist */
    | ReadonlyDbMissing
    /** an operation on a wrapper whose connection was never opened or is closed */
    | NotConnected
    /** a batch write requested on a read-only wrapper */
    | ReadonlyModify
    /** a ledger write requested on a read-only wrapper */
    | ReadonlyVersion
    /** the engine refusing to create a table over a read-only connection */
    | ReadonlyEngine
    /** the engine could not compile a statement */
    | PrepareFailed(sql: string)
    /** the engine rejected one execution of a compiled statement */
    | RunFailed(sql: string)
    /** an insert into the ledger table when that table does not exist */
    | NoLedgerTable
    /** an insert into the ledger that violates its primary key */
    | VersionTaken(version: int)
    /** copying the database file to its backup failed */
    | BackupCopyFailed(path: string)
    /** deleting a backup file failed */
    | BackupUnlinkFailed(path: string)

  datatype Result<+T> = Ok(value: T) | Err(error: Error)

  /** The state after one step, and what the step returned or raised. */
  datatype Step<S, +T> = Step(state: S, result: Result<T>)
}

=== FILE: patches.dfy ===
/** Patches and the two list operations the runner applies to them: a stable
    sort ascending by version, and the filter that keeps the patches newer
    than the installed version. */
module Patches {

  /** A schema patch: a version and the statements that reach it. */
  datatype Patch = Patch(version: int, statements: seq<string>)

  function Versions(ps: seq<Patch>): (vs: seq<int>)
    ensures |vs| == |ps|
  {
    seq(|ps|, i requires 0 <= i < |ps| => ps[i].version)
  }

  lemma VersionsAppend(a: seq<Patch>, b: seq<Patch>)
    ensures Versions(a + b) == Versions(a) + Versions(b)
  {
  }

  lemma VersionsMember(ps: seq<Patch>, v: int)
    ensures v in Versions(ps) <==> exists p :: p in ps && p.version == v
  {
    if v in Versions(ps) {
      var i :| 0 <= i < |ps| && Versions(ps)[i] == v;
      assert ps[i] in ps;
    }
    if exists p :: p in ps && p.version == v {
      var p :| p in ps && p.version == v;
      var i :| 0 <= i < |ps| && ps[i] == p;
      assert Versions(ps)[i] == v;
    }
  }

  predicate Sorted(ps: seq<Patch>) {
    forall i, j :: 0 <= i < j < |ps| ==> ps[i].version <= ps[j].version
  }

  /** No two positions of the list carry the same version. */
  predicate DistinctVersions(ps: seq<Patch>) {
    forall i, j :: 0 <= i < j < |ps| ==> ps[i].version != ps[j].version
  }

  /** A version names at most one patch of the list (repeated copies of one
      and the same patch allowed). */
  predicate VersionKeyed(ps: seq<Patch>) {
    forall p, q :: p in ps && q in ps && p.version == q.version ==> p == q
  }

  /** Insert `p` into a sorted list in front of every patch whose version is
      not smaller, which keeps the sort stable. */
  function Insert(p: Patch, ps: seq<Patch>): (r: seq<Patch>)
    requires Sorted(ps)
    ensures Sorted(r)
    ensures multiset(r) == multiset(ps) + multiset{p}
    decreases |ps|
  {
    if |ps| == 0 || p.version <= ps[0].version then [p] + ps
    else
      var rest := Insert(p, ps[1..]);
      InsertBehindHead(p, ps, rest);
      [ps[0]] + rest
  }

  /** The step of `Insert` that keeps the head in front. */
  lemma InsertBehindHead(p: Patch, ps: seq<Patch>, rest: seq<Patch>)
    requires Sorted(ps) && |ps| > 0 && p.version > ps[0].version
    requires Sorted(rest) && multiset(rest) == multiset(ps[1..]) + multiset{p}
    ensures Sorted([ps[0]] + rest)
    ensures multiset([ps[0]] + rest) == multiset(ps) + multiset{p}
  {
    assert ps == [ps[0]] + ps[1..];
    forall q | q in rest
      ensures ps[0].version <= q.version
    {
      assert q in multiset(rest);
      if q != p {
        assert q in ps[1..];
      }
    }
    ConsKeepsSorted(ps[0], rest);
  }

  /** `patches.sort((a, b) => a.version - b.version)`: a stable sort,
      ascending by version. */
  function SortByVersion(ps: seq<Patch>): (r: seq<Patch>)
    ensures Sorted(r)
    ensures multiset(r) == multiset(ps)
    decreases |ps|
  {
    if |ps| == 0 then []
    else
      assert ps == [ps[0]] + ps[1..];
      Insert(ps[0], SortByVersion(ps[1..]))
  }

  /** The patches of `ps` whose version is `v`, in list order. */
  function WithVersion(ps: seq<Patch>, v: int): (r: seq<Patch>)
    ensures |r| <= |ps|
    decreases |ps|
  {
    if |ps| == 0 then []
    else (if ps[0].version == v then [ps[0]] else []) + WithVersion(ps[1..], v)
  }

  lemma WithVersionCons(p: Patch, ps: seq<Patch>, v: int)
    ensures WithVersion([p] + ps, v) == (if p.version == v then [p] else []) + WithVersion(ps, v)
  {
    assert ([p] + ps)[1..] == ps;
  }

  /** Inserting a patch puts it in front of every patch of the same
      version. */
  lemma {:induction false} InsertIsStable(p: Patch, ps: seq<Patch>, v: int)
    requires Sorted(ps)
    ensures WithVersion(Insert(p, ps), v) == (if p.version == v then [p] else []) + WithVersion(ps, v)
    decreases |ps|
  {
    if |ps| == 0 || p.version <= ps[0].version {
      WithVersionCons(p, ps, v);
    } else {
      TailKeepsSorted(ps);
      var rest := Insert(p, ps[1..]);
      InsertIsStable(p, ps[1..], v);
      WithVersionCons(ps[0], rest, v);
      WithVersionCons(ps[0], ps[1..], v);
      assert ps == [ps[0]] + ps[1..];
    }
  }

  /** The sort is stable: patches that share a version keep their relative
      order. */
  lemma {:induction false} SortIsStable(ps: seq<Patch>, v: int)
    ensures WithVersion(SortByVersion(ps), v) == WithVersion(ps, v)
    decreases |ps|
  {
    if |ps| > 0 {
      SortIsStable(ps[1..], v);
      InsertIsStable(ps[0], SortByVersion(ps[1..]), v);
      WithVersionCons(ps[0], ps[1..], v);
      assert ps == [ps[0]] + ps[1..];
    }
  }

  /** Putting a patch with a new version in front of a list with pairwise
      distinct versions keeps them pairwise distinct. */
  lemma ConsKeepsDistinct(p: Patch, ps: seq<Patch>)
    requires DistinctVersions(ps)
    requires forall q :: q in ps ==> q.version != p.version
    ensures DistinctVersions([p] + ps)
  {
    var r := [p] + ps;
    forall i, j | 0 <= i < j < |r|
      ensures r[i].version != r[j].version
    {
      assert r[j] == ps[j - 1];
      if i > 0 {
        assert r[i] == ps[i - 1];
      }
    }
  }

  lemma TailKeepsDistinct(ps: seq<Patch>)
    requires |ps| > 0 && DistinctVersions(ps)
    ensures DistinctVersions(ps[1..])
    ensures forall q :: q in ps[1..] ==> q.version != ps[0].version
  {
    forall i, j | 0 <= i < j < |ps[1..]| ensures ps[1..][i].version != ps[1..][j].version {
      assert ps[1..][i] == ps[i + 1] && ps[1..][j] == ps[j + 1];
    }
    forall q | q in ps[1..] ensures q.version != ps[0].version {
      var k :| 0 <= k < |ps[1..]| && ps[1..][k] == q;
      assert ps[k + 1] == q;
    }
  }

  /** Inserting a patch whose version is new into a list of ascending,
      pairwise distinct versions keeps the versions pairwise distinct. */
  lemma {:induction false} InsertKeepsDistinct(p: Patch, ps: seq<Patch>)
    requires Sorted(ps) && DistinctVersions(ps)
    requires forall q :: q in ps ==> q.version != p.version
    ensures DistinctVersions(Insert(p, ps))
    decreases |ps|
  {
    if |ps| == 0 || p.version <= ps[0].version {
      ConsKeepsDistinct(p, ps);
    } else {
      TailKeepsDistinct(ps);
      assert forall q :: q in ps[1..] ==> q in ps;
      InsertKeepsDistinct(p, ps[1..]);
      var rest := Insert(p, ps[1..]);
      forall q | q in rest
        ensures q.version != ps[0].version
      {
        assert q in multiset(rest);
        assert q == p || q in multiset(ps[1..]);
      }
      ConsKeepsDistinct(ps[0], rest);
    }
  }

  /** Sorting keeps the versions of a list pairwise distinct. */
  lemma {:induction false} SortKeepsDistinct(ps: seq<Patch>)
    requires DistinctVersions(ps)
    ensures DistinctVersions(SortByVersion(ps))
    decreases |ps|
  {
    if |ps| > 0 {
      var tail := ps[1..];
      TailKeepsDistinct(ps);
      SortKeepsDistinct(tail);
      var sorted := SortByVersion(tail);
      forall q | q in sorted
        ensures q.version != ps[0].version
      {
        assert q in multiset(tail);
      }
      InsertKeepsDistinct(ps[0], sorted);
    }
  }

  /** Sorting an already sorted list changes nothing. */
  lemma {:induction false} SortSortedIsIdentity(ps: seq<Patch>)
    requires Sorted(ps)
    ensures SortByVersion(ps) == ps
    decreases |ps|
  {
    if |ps| > 0 {
      SortSortedIsIdentity(ps[1..]);
      assert ps == [ps[0]] + ps[1..];
    }
  }

  /** Two sorted non-empty lists holding the same patches, in which a
      version names at most one patch, start with the same patch. */
  lemma SortedSameHead(a: seq<Patch>, b: seq<Patch>)
    requires |a| > 0 && |b| > 0
    requires Sorted(a) && Sorted(b)
    requires multiset(a) == multiset(b)
    requires VersionKeyed(a)
    ensures a[0] == b[0]
  {
    assert a[0] in multiset(b) && b[0] in multiset(a);
    var i :| 0 <= i < |b| && b[i] == a[0];
    var j :| 0 <= j < |a| && a[j] == b[0];
    assert a[0].version <= a[j].version;
    assert b[0].version <= b[i].version;
  }

  lemma SameTails(a: seq<Patch>, b: seq<Patch>)
    requires |a| > 0 && |b| > 0 && a[0] == b[0]
    requires multiset(a) == multiset(b)
    ensures multiset(a[1..]) == multiset(b[1..])
  {
    assert a == [a[0]] + a[1..];
    assert b == [b[0]] + b[1..];
    calc {
      multiset(a[1..]);
      (multiset([a[0]]) + multiset(a[1..])) - multiset([a[0]]);
      multiset([a[0]] + a[1..]) - multiset([a[0]]);
      multiset([b[0]] + b[1..]) - multiset([b[0]]);
      (multiset([b[0]]) + multiset(b[1..])) - multiset([b[0]]);
      multiset(b[1..]);
    }
  }

  lemma TailKeepsKeyed(ps: seq<Patch>)
    requires |ps| > 0 && VersionKeyed(ps)
    ensures VersionKeyed(ps[1..])
  {
    forall p, q | p in ps[1..] && q in ps[1..] && p.version == q.version
      ensures p == q
    {
      assert p in ps && q in ps;
    }
  }

  /** Two sorted lists holding the same patches, in which a version names
      at most one patch, are the same list. */
  lemma {:induction false} SortedUnique(a: seq<Patch>, b: seq<Patch>)
    requires Sorted(a) && Sorted(b)
    requires multiset(a) == multiset(b)
    requires VersionKeyed(a)
    ensures a == b
    decreases |a|
  {
    SameLength(a, b);
    if |a| > 0 {
      SortedSameHead(a, b);
      SameTails(a, b);
      TailKeepsSorted(a);
      TailKeepsSorted(b);
      TailKeepsKeyed(a);
      SortedUnique(a[1..], b[1..]);
      SameHeadSameTail(a, b);
    }
  }

  lemma SameLength(a: seq<Patch>, b: seq<Patch>)
    requires multiset(a) == multiset(b)
    ensures |a| == |b|
  {
    assert |a| == |multiset(a)| == |multiset(b)| == |b|;
  }

  lemma SameHeadSameTail(a: seq<Patch>, b: seq<Patch>)
    requires |a| > 0 && |b| > 0 && a[0] == b[0] && a[1..] == b[1..]
    ensures a == b
  {
    assert a == [a[0]] + a[1..];
    assert b == [b[0]] + b[1..];
  }

  /** The order in which patches are supplied does not matter: any two
      arrangements of one patch set, in which a version names one patch,
      sort to the same list. */
  lemma SortIgnoresInputOrder(ps1: seq<Patch>, ps2: seq<Patch>)
    requires multiset(ps1) == multiset(ps2)
    requires VersionKeyed(ps1)
    ensures SortByVersion(ps1) == SortByVersion(ps2)
  {
    var s1, s2 := SortByVersion(ps1), SortByVersion(ps2);
    assert VersionKeyed(s1) by {
      forall p, q | p in s1 && q in s1 && p.version == q.version
        ensures p == q
      {
        assert p in multiset(s1) && q in multiset(s1);
        assert p in ps1 && q in ps1;
      }
    }
    SortedUnique(s1, s2);
  }

  lemma TailKeepsSorted(ps: seq<Patch>)
    requires |ps| > 0 && Sorted(ps)
    ensures Sorted(ps[1..])
  {
    forall i, j | 0 <= i < j < |ps[1..]| ensures ps[1..][i].version <= ps[1..][j].version {
      assert ps[1..][i] == ps[i + 1] && ps[1..][j] == ps[j + 1];
    }
  }

  lemma HeadIsLeast(ps: seq<Patch>)
    requires |ps| > 0 && Sorted(ps)
    ensures forall q :: q in ps ==> ps[0].version <= q.version
  {
  }

  lemma ConsKeepsSorted(p: Patch, ps: seq<Patch>)
    requires Sorted(ps)
    requires forall q :: q in ps ==> p.version <= q.version
    ensures Sorted([p] + ps)
  {
    var r := [p] + ps;
    forall i, j | 0 <= i < j < |r|
      ensures r[i].version <= r[j].version
    {
      assert r[j] == ps[j - 1];
      if i > 0 {
        assert r[i] == ps[i - 1];
      }
    }
  }

  /** `.filter((patch) => patch.version > version)`. */
  function Applicable(ps: seq<Patch>, current: int): (r: seq<Patch>)
    ensures forall p :: p in r <==> p in ps && p.version > current
    ensures forall p {:trigger multiset(r)[p]} :: multiset(r)[p] == if p.version > current then multiset(ps)[p] else 0
    ensures forall v :: WithVersion(r, v) == if v > current then WithVersion(ps, v) else []
    ensures Sorted(ps) ==> Sorted(r)
    ensures DistinctVersions(ps) ==> DistinctVersions(r)
    ensures |r| <= |ps|
    decreases |ps|
  {
    if |ps| == 0 then []
    else
      var rest := Applicable(ps[1..], current);
      var r := if ps[0].version > current then [ps[0]] + rest else rest;
      FilterCountStep(ps, current, rest, r);
      FilterOrderStep(ps, current, rest, r);
      FilterShapeStep(ps, current, rest, r);
      r
  }

  /** Filtering the head in front of a filtered tail keeps the count of
      every newer patch and drops the others. */
  lemma FilterCountStep(ps: seq<Patch>, current: int, rest: seq<Patch>, r: seq<Patch>)
    requires |ps| > 0
    requires r == if ps[0].version > current then [ps[0]] + rest else rest
    requires forall p :: multiset(rest)[p] == if p.version > current then multiset(ps[1..])[p] else 0
    ensures forall p :: multiset(r)[p] == if p.version > current then multiset(ps)[p] else 0
  {
    assert ps == [ps[0]] + ps[1..];
    assert multiset(ps) == multiset{ps[0]} + multiset(ps[1..]);
    assert multiset([ps[0]] + rest) == multiset{ps[0]} + multiset(rest);
  }

  /** Filtering the head in front of a filtered tail keeps, for every newer
      version, its patches in list order, and drops the other versions. */
  lemma FilterOrderStep(ps: seq<Patch>, current: int, rest: seq<Patch>, r: seq<Patch>)
    requires |ps| > 0
    requires r == if ps[0].version > current then [ps[0]] + rest else rest
    requires forall v :: WithVersion(rest, v) == if v > current then WithVersion(ps[1..], v) else []
    ensures forall v :: WithVersion(r, v) == if v > current then WithVersion(ps, v) else []
  {
    assert ps == [ps[0]] + ps[1..];
    forall v | true
      ensures WithVersion([ps[0]] + rest, v) == (if ps[0].version == v then [ps[0]] else []) + WithVersion(rest, v)
      ensures WithVersion(ps, v) == (if ps[0].version == v then [ps[0]] else []) + WithVersion(ps[1..], v)
    {
      WithVersionCons(ps[0], rest, v);
      WithVersionCons(ps[0], ps[1..], v);
    }
  }

  /** Filtering the head in front of a filtered tail keeps exactly the
      newer patches, and keeps ascending order and distinct versions. */
  lemma FilterShapeStep(ps: seq<Patch>, current: int, rest: seq<Patch>, r: seq<Patch>)
    requires |ps| > 0
    requires r == if ps[0].version > current then [ps[0]] + rest else rest
    requires forall p :: p in rest <==> p in ps[1..] && p.version > current
    requires Sorted(ps[1..]) ==> Sorted(rest)
    requires DistinctVersions(ps[1..]) ==> DistinctVersions(rest)
    ensures forall p :: p in r <==> p in ps && p.version > current
    ensures Sorted(ps) ==> Sorted(r)
    ensures DistinctVersions(ps) ==> DistinctVersions(r)
  {
    assert forall p :: p in ps <==> p == ps[0] || p in ps[1..];
    if Sorted(ps) {
      TailKeepsSorted(ps);
      if ps[0].version > current {
        HeadIsLeast(ps);
        ConsKeepsSorted(ps[0], rest);
      }
    }
    if DistinctVersions(ps) {
      TailKeepsDistinct(ps);
      if ps[0].version > current {
        ConsKeepsDistinct(ps[0], rest);
      }
    }
  }
}

=== FILE: runner.dfy ===
/** The patch runner (`checkPatches`): read the installed version, sort the
    configured patches, keep the newer ones, back the database up, apply each
    pending patch's statements in order and record its version, and remove
    the backup once every patch has been applied. The first failure stops
    the run, leaves the backup in place and is re-raised. */
module PatchRunner {
  import opened Outcomes
  import opened Database
  import opened Ledger
  import opened Patches
  import opened Backups

  /** Every statement of the patches, patch by patch, each in listed order. */
  function Script(ps: seq<Patch>): seq<Run>
    decreases |ps|
  {
    if |ps| == 0 then [] else Bare(ps[0].statements) + Script(ps[1..])
  }

  predicate AllNewer(ps: seq<Patch>, current: int) {
    forall p :: p in ps ==> p.version > current
  }

  /** How applying patch `p` after the executions `before` can fail with
      error `e`, leaving the executions `after`: the engine refused one of
      its statements, and the statements before that one stay; or every
      statement ran and recording the version was refused. */
  predicate PatchFailure(eng: Engine, readonly: bool, tables: set<string>, before: seq<Run>, after: seq<Run>, p: Patch, e: Error) {
    || StoppedAt(eng, before, Bare(p.statements), after, e)
    || (after == before + Bare(p.statements) && e == LedgerRefusal(tables, readonly, p.version))
  }

  lemma NewerSplit(ps: seq<Patch>, current: int)
    requires |ps| > 0 && AllNewer(ps, current)
    ensures ps[0].version > current && AllNewer(ps[1..], current)
  {
    assert ps[0] in ps;
    forall p | p in ps[1..] ensures p.version > current { assert p in ps; }
  }

  /** One patch: run its statements in listed order, then record its
      version. The version is recorded only when every statement ran. */
  function ApplyOne(s: Store, p: Patch, readonly: bool, eng: Engine): (r: Step<Store, ()>)
    ensures r.state.tables == s.tables
    ensures s.applied <= r.state.applied <= s.applied + Bare(p.statements)
    ensures r.result.Ok? ==> r.state == s.(ledger := s.ledger + [p.version], applied := s.applied + Bare(p.statements))
    ensures r.result.Err? ==> r.state.ledger == s.ledger
    ensures r.result.Ok? <==> && AcceptsAll(eng, s.applied, Bare(p.statements))
                              && !readonly && HasLedgerTable(s.tables) && p.version !in s.ledger
    ensures r.result.Err? ==> PatchFailure(eng, readonly, s.tables, s.applied, r.state.applied, p, r.result.error)
    ensures Wf(s) ==> Wf(r.state)
  {
    var run := RunAll(s, eng, Bare(p.statements));
    if run.result.Err? then run
    else SetDbVersion(run.state, readonly, p.version)
  }

  /** The loop over the pending patches. For each patch still newer than
      the installed version (always the case for the filtered list), apply
      it; stop at the first failure. */
  function ApplyPatches(s: Store, ps: seq<Patch>, current: int, readonly: bool, eng: Engine): (r: Step<Store, ()>)
    ensures r.state.tables == s.tables
    ensures s.ledger <= r.state.ledger
    ensures s.applied <= r.state.applied
    ensures Wf(s) ==> Wf(r.state)
    decreases |ps|
  {
    if |ps| == 0 then Step(s, Ok(()))
    else if ps[0].version > current then
      var one := ApplyOne(s, ps[0], readonly, eng);
      if one.result.Err? then one
      else
        ApplyPatches(one.state, ps[1..], current, readonly, eng)
    else ApplyPatches(s, ps[1..], current, readonly, eng)
  }

  /** A successful run records the version of every patch newer than the
      installed version, in list order, and ran exactly their statements,
      patch by patch and each patch's in listed order. */
  lemma {:induction false} ApplyPatchesSucceeded(s: Store, ps: seq<Patch>, current: int, readonly: bool, eng: Engine)
    requires ApplyPatches(s, ps, current, readonly, eng).result.Ok?
    ensures var t := ApplyPatches(s, ps, current, readonly, eng).state;
            && t.ledger == s.ledger + Versions(Applicable(ps, current))
            && t.applied == s.applied + Script(Applicable(ps, current))
    decreases |ps|
  {
    if |ps| > 0 {
      var done := Applicable(ps[1..], current);
      if ps[0].version > current {
        var one := ApplyOne(s, ps[0], readonly, eng);
        assert one.result.Ok?;
        var rest := ApplyPatches(one.state, ps[1..], current, readonly, eng);
        assert ApplyPatches(s, ps, current, readonly, eng) == rest;
        ApplyPatchesSucceeded(one.state, ps[1..], current, readonly, eng);
        assert Applicable(ps, current) == [ps[0]] + done;
        RecordedAfterHead(s, one.state, rest.state, ps[0], done);
      } else {
        assert ApplyPatches(s, ps, current, readonly, eng) == ApplyPatches(s, ps[1..], current, readonly, eng);
        assert Applicable(ps, current) == done;
        ApplyPatchesSucceeded(s, ps[1..], current, readonly, eng);
      }
    }
  }

  /** Conversely, on a database with a ledger table, a read-write run of
      newer patches with pairwise distinct versions none of which is
      recorded yet succeeds when the engine accepts every statement of the
      patches in order. */
  lemma {:induction false} ApplyPatchesAccepted(s: Store, ps: seq<Patch>, current: int, eng: Engine)
    requires HasLedgerTable(s.tables)
    requires AllNewer(ps, current) && DistinctVersions(ps)
    requires forall p :: p in ps ==> p.version !in s.ledger
    requires AcceptsAll(eng, s.applied, Script(ps))
    ensures ApplyPatches(s, ps, current, false, eng).result.Ok?
    decreases |ps|
  {
    if |ps| > 0 {
      assert ps[0] in ps;
      AcceptsAllAppend(eng, s.applied, Bare(ps[0].statements), Script(ps[1..]));
      var one := ApplyOne(s, ps[0], false, eng);
      assert one.result.Ok?;
      assert ApplyPatches(s, ps, current, false, eng) == ApplyPatches(one.state, ps[1..], current, false, eng);
      TailKeepsDistinct(ps);
      NewerSplit(ps, current);
      forall p | p in ps[1..] ensures p.version !in one.state.ledger {
        assert p in ps;
      }
      ApplyPatchesAccepted(one.state, ps[1..], current, eng);
    }
  }

  /** Composing the head patch's step with the rest of the run. */
  lemma RecordedAfterHead(s: Store, mid: Store, t: Store, p: Patch, done: seq<Patch>)
    requires mid.ledger == s.ledger + [p.version] && mid.applied == s.applied + Bare(p.statements)
    requires t.ledger == mid.ledger + Versions(done) && t.applied == mid.applied + Script(done)
    ensures t.ledger == s.ledger + Versions([p] + done)
    ensures t.applied == s.applied + Script([p] + done)
  {
    ScriptCons(p, done);
    VersionsAppend([p], done);
    assert Versions([p]) == [p.version];
  }

  lemma ScriptCons(p: Patch, ps: seq<Patch>)
    ensures Script([p] + ps) == Bare(p.statements) + Script(ps)
  {
    assert ([p] + ps)[1..] == ps;
  }

  /** After a failure with error `e` while applying patch `n`: the
      patches before it are recorded and nothing else, the statements that
      ran are those of the patches before it and a prefix of patch `n`'s,
      and `e` is the refusal that stopped patch `n`. */
  predicate FailedAt(s: Store, t: Store, ps: seq<Patch>, n: int, readonly: bool, eng: Engine, e: Error)
    requires 0 <= n < |ps|
  {
    && t.ledger == s.ledger + Versions(ps[..n])
    && s.applied + Script(ps[..n]) <= t.applied
    && t.applied <= s.applied + Script(ps[..n + 1])
    && PatchFailure(eng, readonly, s.tables, s.applied + Script(ps[..n]), t.applied, ps[n], e)
  }

  /** A failing run stops inside some patch: later patches are not
      attempted and the failing patch's version is not recorded. */
  lemma {:induction false} ApplyStopsAtFailure(s: Store, ps: seq<Patch>, current: int, readonly: bool, eng: Engine)
    requires AllNewer(ps, current)
    requires ApplyPatches(s, ps, current, readonly, eng).result.Err?
    ensures var r := ApplyPatches(s, ps, current, readonly, eng);
            exists n :: 0 <= n < |ps| && FailedAt(s, r.state, ps, n, readonly, eng, r.result.error)
    decreases |ps|
  {
    NewerSplit(ps, current);
    var one := ApplyOne(s, ps[0], readonly, eng);
    if one.result.Err? {
      assert ApplyPatches(s, ps, current, readonly, eng) == one;
      FailedInHead(s, one.state, ps, readonly, eng, one.result.error);
    } else {
      var r := ApplyPatches(one.state, ps[1..], current, readonly, eng);
      assert ApplyPatches(s, ps, current, readonly, eng) == r;
      ApplyStopsAtFailure(one.state, ps[1..], current, readonly, eng);
      var m :| 0 <= m < |ps[1..]| && FailedAt(one.state, r.state, ps[1..], m, readonly, eng, r.result.error);
      FailedOneLater(s, one.state, r.state, ps, m, readonly, eng, r.result.error);
    }
  }

  /** A failure of the head patch is a failure at position 0. */
  lemma FailedInHead(s: Store, t: Store, ps: seq<Patch>, readonly: bool, eng: Engine, e: Error)
    requires |ps| > 0
    requires t.ledger == s.ledger && s.applied <= t.applied <= s.applied + Bare(ps[0].statements)
    requires PatchFailure(eng, readonly, s.tables, s.applied, t.applied, ps[0], e)
    ensures FailedAt(s, t, ps, 0, readonly, eng, e)
  {
    assert ps[..0] == [] && ps[..1] == [ps[0]];
    ScriptCons(ps[0], []);
    assert s.applied + Script([]) == s.applied;
  }

  /** Lifting a failure at position `m` of the tail, after the head patch
      was applied, to a failure at position `m + 1` of the whole list. */
  lemma FailedOneLater(s: Store, mid: Store, t: Store, ps: seq<Patch>, m: int, readonly: bool, eng: Engine, e: Error)
    requires |ps| > 0 && 0 <= m < |ps| - 1
    requires mid.tables == s.tables
    requires mid.ledger == s.ledger + [ps[0].version]
    requires mid.applied == s.applied + Bare(ps[0].statements)
    requires FailedAt(mid, t, ps[1..], m, readonly, eng, e)
    ensures FailedAt(s, t, ps, m + 1, readonly, eng, e)
  {
    var n := m + 1;
    assert ps[n] == ps[1..][m];
    PrefixAfterHead(s, ps, m);
    PrefixAfterHead(s, ps, m + 1);
  }

  /** The first `k` patches of the tail, after the head patch, are the
      first `k + 1` patches of the whole list. */
  lemma PrefixAfterHead(s: Store, ps: seq<Patch>, k: int)
    requires |ps| > 0 && 0 <= k < |ps|
    ensures s.ledger + [ps[0].version] + Versions(ps[1..][..k]) == s.ledger + Versions(ps[..k + 1])
    ensures (s.applied + Bare(ps[0].statements)) + Script(ps[1..][..k]) == s.applied + Script(ps[..k + 1])
  {
    assert ps[..k + 1] == [ps[0]] + ps[1..][..k];
    VersionsAppend([ps[0]], ps[1..][..k]);
    ScriptCons(ps[0], ps[1..][..k]);
  }

  /** With the pending patches in ascending order and pairwise distinct,
      a failure in patch `n` leaves every recorded version below patch
      `n`'s version. */
  lemma FailureLeavesLedgerBelow(s: Store, ps: seq<Patch>, current: int, readonly: bool, eng: Engine)
    requires forall x :: x in s.ledger ==> x <= current
    requires Sorted(ps) && DistinctVersions(ps) && AllNewer(ps, current)
    requires ApplyPatches(s, ps, current, readonly, eng).result.Err?
    ensures var r := ApplyPatches(s, ps, current, readonly, eng);
            exists n :: && 0 <= n < |ps| && FailedAt(s, r.state, ps, n, readonly, eng, r.result.error)
                        && forall v :: v in r.state.ledger ==> v < ps[n].version
  {
    var r := ApplyPatches(s, ps, current, readonly, eng);
    var t := r.state;
    ApplyStopsAtFailure(s, ps, current, readonly, eng);
    var n :| 0 <= n < |ps| && FailedAt(s, t, ps, n, readonly, eng, r.result.error);
    forall v | v in t.ledger
      ensures v < ps[n].version
    {
      assert ps[n] in ps;
      if v !in s.ledger {
        assert v in Versions(ps[..n]);
        var i :| 0 <= i < n && Versions(ps[..n])[i] == v;
        assert v == ps[i].version;
      }
    }
  }

  /** The pending patches: sorted ascending by version, newer than the
      installed version. */
  function Pending(patches: seq<Patch>, installed: int): (todo: seq<Patch>)
    ensures Sorted(todo) && AllNewer(todo, installed)
    ensures forall p :: p in todo <==> p in patches && p.version > installed
    ensures forall p :: multiset(todo)[p] == if p.version > installed then multiset(patches)[p] else 0
  {
    var sorted := SortByVersion(patches);
    assert forall p :: p in sorted <==> p in multiset(patches);
    Applicable(sorted, installed)
  }

  lemma PendingOfDistinct(patches: seq<Patch>, installed: int)
    requires DistinctVersions(patches)
    ensures DistinctVersions(Pending(patches, installed))
  {
    SortKeepsDistinct(patches);
  }

  /** The database and the backups on disk. */
  datatype Disk = Disk(db: Store, backups: BackupSet)

  /** Every backup other than the one at `path` is still there, unchanged. */
  predicate KeepsOtherBackups(before: BackupSet, after: BackupSet, path: string) {
    forall other :: other in before && other != path ==> other in after && after[other] == before[other]
  }

  /** The part of `checkPatches` after the pending list is known to be
      non-empty: back the database up, apply the pending patches, and
      remove the backup once all of them are applied. */
  function PatchWithBackup(d: Disk, todo: seq<Patch>, version: int, readonly: bool, backupDir: string, eng: Engine, fs: FileSystem): (r: Step<Disk, ()>)
    ensures d.db.ledger <= r.state.db.ledger
    ensures d.db.applied <= r.state.db.applied
    ensures Wf(d.db) ==> Wf(r.state.db)
    ensures KeepsOtherBackups(d.backups, r.state.backups, BackupPath(backupDir, fs.stamp))
  {
    var bk := CreateBackup(d.db, d.backups, backupDir, fs);
    if bk.result.Err? then Step(d, Err(bk.result.error))
    else
      var ap := ApplyPatches(d.db, todo, version, readonly, eng);
      if ap.result.Err? then Step(Disk(ap.state, bk.state), Err(ap.result.error))
      else
        var rm := RemoveBackup(bk.state, bk.result.value, fs);
        Step(Disk(ap.state, rm.state), rm.result)
  }

  /** `checkPatches`: read (or create) the ledger, then patch with a backup
      when some configured patch is newer than the installed version. */
  function CheckPatches(d: Disk, patches: seq<Patch>, readonly: bool, backupDir: string, eng: Engine, fs: FileSystem): (r: Step<Disk, ()>)
    ensures d.db.ledger <= r.state.db.ledger
    ensures d.db.applied <= r.state.db.applied
    ensures Wf(d.db) ==> Wf(r.state.db)
    ensures KeepsOtherBackups(d.backups, r.state.backups, BackupPath(backupDir, fs.stamp))
  {
    var gv := GetPatchVersion(d.db, readonly);
    if gv.result.Err? then Step(d.(db := gv.state), Err(gv.result.error))
    else
      var todo := Pending(patches, gv.result.value);
      if |todo| == 0 then Step(d.(db := gv.state), Ok(()))
      else PatchWithBackup(d.(db := gv.state), todo, gv.result.value, readonly, backupDir, eng, fs)
  }

  /** A successful `checkPatches` leaves the ledger extended by the pending
      versions in ascending order and exactly the pending statements run,
      and no backup behind: none was taken when nothing was pending, and the
      one taken otherwise has been removed. */
  lemma CheckPatchesSucceeded(d: Disk, patches: seq<Patch>, readonly: bool, backupDir: string, eng: Engine, fs: FileSystem)
    requires Wf(d.db)
    requires CheckPatches(d, patches, readonly, backupDir, eng, fs).result.Ok?
    ensures var gv := GetPatchVersion(d.db, readonly);
            var base := gv.state;
            var todo := Pending(patches, MaxVersion(base.ledger));
            var r := CheckPatches(d, patches, readonly, backupDir, eng, fs);
            && gv.result == Ok(MaxVersion(base.ledger))
            && r.state.db == base.(ledger := base.ledger + Versions(todo), applied := base.applied + Script(todo))
            && r.state.backups == (if |todo| == 0 then d.backups else d.backups - {BackupPath(backupDir, fs.stamp)})
  {
    var gv := GetPatchVersion(d.db, readonly);
    ReadBeforePatching(d, readonly);
    var todo := Pending(patches, gv.result.value);
    CheckPatchesUnfold(d, patches, readonly, backupDir, eng, fs);
    if |todo| == 0 {
      assert Versions(todo) == [] && Script(todo) == [];
      assert gv.state.ledger + [] == gv.state.ledger && gv.state.applied + [] == gv.state.applied;
    } else {
      PatchWithBackupSucceeded(d.(db := gv.state), todo, gv.result.value, readonly, backupDir, eng, fs);
    }
  }

  /** A `checkPatches` that got past reading the installed version read
      the largest version of the ledger it left in place. */
  lemma ReadBeforePatching(d: Disk, readonly: bool)
    requires Wf(d.db)
    requires GetPatchVersion(d.db, readonly).result.Ok?
    ensures var gv := GetPatchVersion(d.db, readonly);
            gv.result == Ok(MaxVersion(gv.state.ledger))
  {
  }

  /** `checkPatches` once the installed version has been read. */
  lemma CheckPatchesUnfold(d: Disk, patches: seq<Patch>, readonly: bool, backupDir: string, eng: Engine, fs: FileSystem)
    requires GetPatchVersion(d.db, readonly).result.Ok?
    ensures var gv := GetPatchVersion(d.db, readonly);
            var todo := Pending(patches, gv.result.value);
            CheckPatches(d, patches, readonly, backupDir, eng, fs)
            == if |todo| == 0 then Step(d.(db := gv.state), Ok(()))
               else PatchWithBackup(d.(db := gv.state), todo, gv.result.value, readonly, backupDir, eng, fs)
  {
  }

  lemma PatchWithBackupSucceeded(d: Disk, todo: seq<Patch>, version: int, readonly: bool, backupDir: string, eng: Engine, fs: FileSystem)
    requires AllNewer(todo, version)
    requires PatchWithBackup(d, todo, version, readonly, backupDir, eng, fs).result.Ok?
    ensures var r := PatchWithBackup(d, todo, version, readonly, backupDir, eng, fs);
            && r.state.db == d.db.(ledger := d.db.ledger + Versions(todo), applied := d.db.applied + Script(todo))
            && r.state.backups == d.backups - {BackupPath(backupDir, fs.stamp)}
  {
    var ap := ApplyPatches(d.db, todo, version, readonly, eng);
    assert ap.result.Ok?;
    ApplicableOfNewer(todo, version);
    ApplyPatchesSucceeded(d.db, todo, version, readonly, eng);
    CreateThenRemove(d.db, d.backups, backupDir, fs);
  }

  /** Conversely, a read-write `checkPatches` succeeds when the configured
      versions are pairwise distinct, the file system copies and unlinks,
      and the engine accepts the pending statements in order. On a
      well-formed database the version read is the ledger's maximum, with
      or without a ledger table. */
  lemma CheckPatchesAccepted(d: Disk, patches: seq<Patch>, backupDir: string, eng: Engine, fs: FileSystem)
    requires Wf(d.db)
    requires fs.canCopy && fs.canUnlink
    requires DistinctVersions(patches)
    requires AcceptsAll(eng, d.db.applied, Script(Pending(patches, MaxVersion(d.db.ledger))))
    ensures CheckPatches(d, patches, false, backupDir, eng, fs).result.Ok?
  {
    var gv := GetPatchVersion(d.db, false);
    var v := MaxVersion(d.db.ledger);
    assert gv.result == Ok(v) && gv.state.applied == d.db.applied;
    assert HasLedgerTable(gv.state.tables);
    var todo := Pending(patches, v);
    if |todo| > 0 {
      var dd := d.(db := gv.state);
      assert CheckPatches(d, patches, false, backupDir, eng, fs) == PatchWithBackup(dd, todo, v, false, backupDir, eng, fs);
      PendingOfDistinct(patches, v);
      assert forall x :: x in gv.state.ledger ==> x <= v;
      forall p | p in todo ensures p.version !in gv.state.ledger {
        assert p.version > v;
      }
      ApplyPatchesAccepted(gv.state, todo, v, eng);
      CreateThenRemove(gv.state, d.backups, backupDir, fs);
    }
  }

  /** A failed `checkPatches` ends in one of three ways. It stopped before
      any patch statement ran (the ledger read or the backup copy failed,
      and no backup exists); or a patch failed part-way, with the backup
      of the pre-patch database left in place, the earlier patches applied
      and recorded, and (for pairwise distinct versions) every recorded
      version below the failing patch's; or every patch was applied and
      recorded but removing the backup failed, which leaves it in place. */
  lemma CheckPatchesFailed(d: Disk, patches: seq<Patch>, readonly: bool, backupDir: string, eng: Engine, fs: FileSystem)
    requires Wf(d.db)
    requires CheckPatches(d, patches, readonly, backupDir, eng, fs).result.Err?
    ensures var base := GetPatchVersion(d.db, readonly).state;
            var todo := Pending(patches, MaxVersion(base.ledger));
            var path := BackupPath(backupDir, fs.stamp);
            var r := CheckPatches(d, patches, readonly, backupDir, eng, fs);
            || (&& r.state.db == base && r.state.backups == d.backups
                && r.result.error in {ReadonlyEngine, BackupCopyFailed(path)})
            || (&& |todo| > 0
                && r.state.backups == d.backups[path := base]
                && exists n :: && 0 <= n < |todo| && FailedAt(base, r.state.db, todo, n, readonly, eng, r.result.error)
                               && (DistinctVersions(patches) ==> forall v :: v in r.state.db.ledger ==> v < todo[n].version))
            || (&& |todo| > 0
                && r.state.backups == d.backups[path := base]
                && r.state.db == base.(ledger := base.ledger + Versions(todo), applied := base.applied + Script(todo))
                && r.result.error == BackupUnlinkFailed(path))
  {
    var gv := GetPatchVersion(d.db, readonly);
    var base := gv.state;
    var r := CheckPatches(d, patches, readonly, backupDir, eng, fs);
    if gv.result.Ok? {
      var version := gv.result.value;
      assert version == MaxVersion(base.ledger);
      var todo := Pending(patches, version);
      if |todo| > 0 {
        var dd := d.(db := base);
        assert r == PatchWithBackup(dd, todo, version, readonly, backupDir, eng, fs);
        var bk := CreateBackup(base, d.backups, backupDir, fs);
        if bk.result.Ok? {
          var ap := ApplyPatches(base, todo, version, readonly, eng);
          if ap.result.Err? {
            assert r.state.db == ap.state;
            assert forall x :: x in base.ledger ==> x <= version;
            if DistinctVersions(patches) {
              PendingOfDistinct(patches, version);
              FailureLeavesLedgerBelow(base, todo, version, readonly, eng);
            } else {
              ApplyStopsAtFailure(base, todo, version, readonly, eng);
            }
          } else {
            ApplicableOfNewer(todo, version);
            ApplyPatchesSucceeded(base, todo, version, readonly, eng);
          }
        }
      }
    }
  }

  /** Once patching has succeeded, every configured patch's version is at
      most the ledger's maximum. */
  lemma PatchedCoversAll(ledger: seq<int>, patches: seq<Patch>)
    ensures var todo := Pending(patches, MaxVersion(ledger));
            forall p :: p in patches ==> p.version <= MaxVersion(ledger + Versions(todo))
  {
    var v0 := MaxVersion(ledger);
    var todo := Pending(patches, v0);
    if |todo| == 0 {
      assert ledger + Versions(todo) == ledger;
    } else {
      forall x | x in Versions(todo) ensures x > v0 {
        VersionsMember(todo, x);
      }
      MaxVersionAfterAppend(ledger, Versions(todo));
      var m := MaxOf(Versions(todo));
      forall p | p in patches ensures p.version <= m {
        if p.version > v0 {
          VersionsMember(todo, p.version);
        }
      }
    }
  }

  /** Re-running `checkPatches` after it succeeded applies nothing, takes
      no backup and writes nothing, whatever the engine and the file
      system would do. */
  lemma CheckPatchesRerunIsNoOp(d: Disk, patches: seq<Patch>, readonly: bool, backupDir: string, eng: Engine, fs: FileSystem,
                                eng': Engine, fs': FileSystem)
    requires Wf(d.db)
    requires CheckPatches(d, patches, readonly, backupDir, eng, fs).result.Ok?
    ensures var after := CheckPatches(d, patches, readonly, backupDir, eng, fs).state;
            CheckPatches(after, patches, readonly, backupDir, eng', fs') == Step(after, Ok(()))
  {
    CheckPatchesSucceeded(d, patches, readonly, backupDir, eng, fs);
    var base := GetPatchVersion(d.db, readonly).state;
    var after := CheckPatches(d, patches, readonly, backupDir, eng, fs).state;
    assert HasLedgerTable(after.db.tables);
    PatchedCoversAll(base.ledger, patches);
    NothingPending(patches, MaxVersion(after.db.ledger));
  }

  /** After a successful `checkPatches`, the installed version is the
      newest configured version when some patch was newer than the version
      installed before, and is unchanged otherwise. */
  lemma CheckPatchesReachesNewest(d: Disk, patches: seq<Patch>, readonly: bool, backupDir: string, eng: Engine, fs: FileSystem)
    requires Wf(d.db)
    requires CheckPatches(d, patches, readonly, backupDir, eng, fs).result.Ok?
    ensures var v0 := MaxVersion(GetPatchVersion(d.db, readonly).state.ledger);
            var v1 := MaxVersion(CheckPatches(d, patches, readonly, backupDir, eng, fs).state.db.ledger);
            && ((forall p :: p in patches ==> p.version <= v0) ==> v1 == v0)
            && (|patches| > 0 && (exists p :: p in patches && p.version > v0) ==> v1 == MaxOf(Versions(patches)))
  {
    CheckPatchesSucceeded(d, patches, readonly, backupDir, eng, fs);
    var base := GetPatchVersion(d.db, readonly).state;
    var v0 := MaxVersion(base.ledger);
    var todo := Pending(patches, v0);
    if |todo| == 0 {
      assert base.ledger + Versions(todo) == base.ledger;
    } else {
      forall x | x in Versions(todo) ensures x > v0 {
        VersionsMember(todo, x);
      }
      MaxVersionAfterAppend(base.ledger, Versions(todo));
      var m := MaxOf(Versions(todo));
      VersionsMember(todo, m);
      assert todo[0] in todo;
      if |patches| > 0 {
        var big := MaxOf(Versions(patches));
        VersionsMember(patches, big);
        VersionsMember(patches, m);
        var q :| q in patches && q.version == big;
        if exists p :: p in patches && p.version > v0 {
          var p :| p in patches && p.version > v0;
          VersionsMember(patches, p.version);
          VersionsMember(todo, big);
        }
      }
    }
  }

  /** The order in which the patches are configured does not matter when
      a version names at most one patch. */
  lemma CheckPatchesIgnoresOrder(d: Disk, ps1: seq<Patch>, ps2: seq<Patch>, readonly: bool, backupDir: string, eng: Engine, fs: FileSystem)
    requires multiset(ps1) == multiset(ps2)
    requires VersionKeyed(ps1)
    ensures CheckPatches(d, ps1, readonly, backupDir, eng, fs) == CheckPatches(d, ps2, readonly, backupDir, eng, fs)
  {
    SortIgnoresInputOrder(ps1, ps2);
  }

  lemma {:induction false} ApplicableOfOlder(ps: seq<Patch>, current: int)
    requires forall p :: p in ps ==> p.version <= current
    ensures Applicable(ps, current) == []
    decreases |ps|
  {
    if |ps| > 0 {
      assert ps[0] in ps;
      assert forall p :: p in ps[1..] ==> p in ps;
      ApplicableOfOlder(ps[1..], current);
    }
  }

  /** Nothing is pending when no configured patch is newer. */
  lemma NothingPending(patches: seq<Patch>, installed: int)
    requires forall p :: p in patches ==> p.version <= installed
    ensures Pending(patches, installed) == []
  {
    var sorted := SortByVersion(patches);
    assert forall p :: p in sorted ==> p in multiset(patches);
    ApplicableOfOlder(sorted, installed);
  }

  lemma {:induction false} ApplicableOfNewer(ps: seq<Patch>, current: int)
    requires AllNewer(ps, current)
    ensures Applicable(ps, current) == ps
    decreases |ps|
  {
    if |ps| > 0 {
      NewerSplit(ps, current);
      ApplicableOfNewer(ps[1..], current);
      FilterKeepsHead(ps, current);
    }
  }

  lemma FilterKeepsHead(ps: seq<Patch>, current: int)
    requires |ps| > 0 && ps[0].version > current
    requires Applicable(ps[1..], current) == ps[1..]
    ensures Applicable(ps, current) == ps
  {
    assert ps == [ps[0]] + ps[1..];
  }
}

=== FILE: scenarios.dfy ===
/** Concrete runs of the wrapper in the situations its tests exercise: a
    fresh file patched to version 1, the same file reopened with versions 1
    and 2, a patch that fails on a fresh file, and a batch with a rejected
    row. */
module Scenarios {
  import opened Outcomes
  import opened Database
  import opened Ledger
  import opened Patches
  import opened Backups
  import opened PatchRunner
  import opened SQLiteDb

  /** An engine that compiles and accepts every statement. */
  const AcceptAll: Engine := Engine(_ => true, (_, _) => false)

  /** A file system whose copies and unlinks succeed. */
  const WorkingFs: FileSystem := FileSystem("1700000000000", true, true)

  const V1: Patch := Patch(1, ["create table messages (id integer primary key, text text)"])
  const V2: Patch := Patch(2, ["alter table messages add create_date integer", "create table test1234(id integer)"])

  /** A read-write wrapper configured with `patches` over `file`. */
  function Writer(patches: seq<Patch>, file: Option<Store>): Db {
    New(Construct("messages.db", Some(false), Some(patches), None, "/tmp"), file, map[])
  }

  lemma LedgerAloneIsFound()
    ensures HasLedgerTable({LedgerTable})
  {
    assert {} + {LedgerTable} == {LedgerTable};
    CreatedLedgerIsFound({});
  }

  /** Reading the version of a fresh file creates the ledger with row 0. */
  lemma FreshLedger()
    ensures GetPatchVersion(EmptyStore, false) == Step(Store({LedgerTable}, [0], []), Ok(0))
  {
    assert !HasLedgerTable({});
    var created := EmptyStore.(tables := EmptyStore.tables + {LedgerTable});
    assert created.tables == {LedgerTable};
    LedgerAloneIsFound();
    assert HasLedgerTable(created.tables);
    assert 0 !in created.ledger;
    assert created.ledger + [0] == [0];
    assert SetDbVersion(created, false, 0).result.Ok?;
    assert SetDbVersion(created, false, 0) == Step(created.(ledger := [0]), Ok(()));
  }

  // The runner-level scenario lemmas below take the engine as a parameter
  // and pin it with `requires eng == AcceptAll` (or `RejectAll`) instead of
  // naming the constant in their statements. Stated that way the engine's
  // lambdas stay out of the runner's unfolded terms until a step needs
  // them; with the constant written inline these proofs cost the solver
  // several times as much.
  // The wrapper-level lemmas (`FreshFileReachesVersionOne`, ...) use the
  // constants directly.

  /** The patch runner on a fresh file with version 1 configured. */
  lemma FreshFilePatched(eng: Engine)
    requires eng == AcceptAll
    ensures CheckPatches(Disk(EmptyStore, map[]), [V1], false, "/tmp", eng, WorkingFs)
            == Step(Disk(Store({LedgerTable}, [0, 1], Bare(V1.statements)), map[]), Ok(()))
  {
    var base := Store({LedgerTable}, [0], []);
    var s1 := base.(ledger := [0, 1], applied := Bare(V1.statements));
    FreshLedger();
    VersionOnePending();
    VersionOneApplied(eng, base);
    BackedUpPatching(eng, base, [V1], 0, s1);
  }

  /** Applying version 1 runs its statement and records it. */
  lemma VersionOneApplied(eng: Engine, base: Store)
    requires eng == AcceptAll
    requires base == Store({LedgerTable}, [0], [])
    ensures ApplyPatches(base, [V1], 0, false, eng) == Step(base.(ledger := [0, 1], applied := Bare(V1.statements)), Ok(()))
  {
    LedgerAloneIsFound();
    var run := RunAll(base, eng, Bare(V1.statements));
    assert Bare(V1.statements) == [Run(V1.statements[0], [])];
    assert run.result.Ok?;
    assert run.state == base.(applied := Bare(V1.statements));
    assert 1 !in run.state.ledger && [0] + [1] == [0, 1];
    assert ApplyOne(base, V1, false, eng) == Step(base.(ledger := [0, 1], applied := Bare(V1.statements)), Ok(()));
  }

  /** A fresh file patched with version 1 ends with the ledger rows 0 and 1,
      the patch's statement run once, and no backup left behind. */
  lemma FreshFileReachesVersionOne()
    ensures var r := InitDb(Writer([V1], None), AcceptAll, WorkingFs);
            && r.result.Ok?
            && r.state.file == Some(Store({LedgerTable}, [0, 1], Bare(V1.statements)))
            && r.state.backups == map[]
  {
    FreshFilePatched(AcceptAll);
  }

  /** Of versions 1 and 2, only version 2 is newer than version 1. */
  lemma OnlyVersionTwoPending()
    ensures Pending([V1, V2], 1) == [V2]
  {
    assert [V1, V2][1..] == [V2];
    assert SortByVersion([V2]) == [V2];
    assert Insert(V1, [V2]) == [V1, V2];
    assert SortByVersion([V1, V2]) == [V1, V2];
    assert Applicable([V2], 1) == [V2];
  }

  /** Applying version 2 runs its two statements in order and records it. */
  lemma VersionTwoApplied(eng: Engine, s1: Store)
    requires eng == AcceptAll
    requires s1 == Store({LedgerTable}, [0, 1], Bare(V1.statements))
    ensures ApplyPatches(s1, [V2], 1, false, eng)
            == Step(s1.(ledger := [0, 1, 2], applied := s1.applied + Bare(V2.statements)), Ok(()))
  {
    LedgerAloneIsFound();
    var runs := Bare(V2.statements);
    assert runs == [Run(V2.statements[0], []), Run(V2.statements[1], [])];
    var mid := s1.(applied := s1.applied + [runs[0]]);
    assert RunAll(s1, eng, runs) == RunAll(mid, eng, runs[1..]);
    assert RunAll(s1, eng, runs).result.Ok?;
    assert RunAll(s1, eng, runs).state == s1.(applied := s1.applied + runs);
    assert 2 !in s1.ledger && [0, 1] + [2] == [0, 1, 2];
    var s2 := s1.(ledger := [0, 1, 2], applied := s1.applied + runs);
    assert ApplyOne(s1, V2, false, eng) == Step(s2, Ok(()));
  }

  /** With no backups on disk, patching that succeeds leaves none behind. */
  lemma BackedUpPatching(eng: Engine, base: Store, todo: seq<Patch>, version: int, after: Store)
    requires ApplyPatches(base, todo, version, false, eng) == Step(after, Ok(()))
    ensures PatchWithBackup(Disk(base, map[]), todo, version, false, "/tmp", eng, WorkingFs) == Step(Disk(after, map[]), Ok(()))
  {
    var path := BackupPath("/tmp", WorkingFs.stamp);
    assert CreateBackup(base, map[], "/tmp", WorkingFs) == Step(map[path := base], Ok(path));
    assert map[path := base] - {path} == map[];
  }

  /** The patch runner on that file with versions 1 and 2 configured. */
  lemma ReopenedFilePatched(eng: Engine, s1: Store)
    requires eng == AcceptAll
    requires s1 == Store({LedgerTable}, [0, 1], Bare(V1.statements))
    ensures CheckPatches(Disk(s1, map[]), [V1, V2], false, "/tmp", eng, WorkingFs)
            == Step(Disk(s1.(ledger := [0, 1, 2], applied := s1.applied + Bare(V2.statements)), map[]), Ok(()))
  {
    LedgerAloneIsFound();
    assert MaxVersion([0, 1]) == 1;
    assert GetPatchVersion(s1, false) == Step(s1, Ok(1));
    OnlyVersionTwoPending();
    VersionTwoApplied(eng, s1);
    BackedUpPatching(eng, s1, [V2], 1, s1.(ledger := [0, 1, 2], applied := s1.applied + Bare(V2.statements)));
  }

  /** Reopening that file with versions 1 and 2 configured applies only
      version 2: both of its statements run, in order, after the earlier
      ones, and the ledger gains the row 2. */
  lemma ReopenAppliesOnlyVersionTwo()
    ensures var once := InitDb(Writer([V1], None), AcceptAll, WorkingFs).state;
            var r := InitDb(Writer([V1, V2], once.file), AcceptAll, WorkingFs);
            && r.result.Ok?
            && r.state.file.value.ledger == [0, 1, 2]
            && r.state.file.value.applied == Bare(V1.statements) + Bare(V2.statements)
            && r.state.backups == map[]
  {
    FreshFileReachesVersionOne();
    ReopenedFilePatched(AcceptAll, Store({LedgerTable}, [0, 1], Bare(V1.statements)));
  }

  /** An engine that refuses to compile anything. */
  const RejectAll: Engine := Engine(_ => false, (_, _) => false)

  /** A patch that fails on a fresh file: the error is re-raised, the ledger
      keeps only the row 0 written while reading it, and the backup taken
      before patching stays on disk holding that pre-patch content. */
  lemma FailedPatchKeepsBackup()
    ensures var r := InitDb(Writer([V1], None), RejectAll, WorkingFs);
            && r.result == Err(PrepareFailed(V1.statements[0]))
            && r.state.file.value.ledger == [0]
            && r.state.backups == map[BackupPath("/tmp", WorkingFs.stamp) := Store({LedgerTable}, [0], [])]
  {
    FreshFileFailsPatch(RejectAll);
  }

  /** The patch runner on a fresh file whose only patch fails. */
  lemma FreshFileFailsPatch(eng: Engine)
    requires eng == RejectAll
    ensures var base := Store({LedgerTable}, [0], []);
            CheckPatches(Disk(EmptyStore, map[]), [V1], false, "/tmp", eng, WorkingFs)
            == Step(Disk(base, map[BackupPath("/tmp", WorkingFs.stamp) := base]), Err(PrepareFailed(V1.statements[0])))
  {
    var base := Store({LedgerTable}, [0], []);
    FreshLedger();
    VersionOnePending();
    VersionOneRejected(eng, base);
    BackedUpFailure(eng, base, [V1], 0, PrepareFailed(V1.statements[0]));
  }

  /** With the refusing engine, version 1 fails on its first statement. */
  lemma VersionOneRejected(eng: Engine, base: Store)
    requires eng == RejectAll
    ensures ApplyPatches(base, [V1], 0, false, eng) == Step(base, Err(PrepareFailed(V1.statements[0])))
  {
    assert RunAll(base, eng, Bare(V1.statements)) == Step(base, Err(PrepareFailed(V1.statements[0])));
  }

  /** With no backups on disk, patching that fails without running anything
      leaves the backup of the unchanged database behind. */
  lemma BackedUpFailure(eng: Engine, base: Store, todo: seq<Patch>, version: int, e: Error)
    requires ApplyPatches(base, todo, version, false, eng) == Step(base, Err(e))
    ensures PatchWithBackup(Disk(base, map[]), todo, version, false, "/tmp", eng, WorkingFs)
            == Step(Disk(base, map[BackupPath("/tmp", WorkingFs.stamp) := base]), Err(e))
  {
    var path := BackupPath("/tmp", WorkingFs.stamp);
    assert CreateBackup(base, map[], "/tmp", WorkingFs) == Step(map[path := base], Ok(path));
  }

  /** On a fresh file, version 1 is pending. */
  lemma VersionOnePending()
    ensures Pending([V1], 0) == [V1]
  {
    assert SortByVersion([V1]) == [V1];
  }

  /** An engine that rejects any execution binding a NULL, as a `not null`
      column does. */
  const NotNull: Engine := Engine(_ => true, (_, run: Run) => "NULL" in run.args)

  const InsertMessage: string := "insert into messages (id, text) values ($id, $text)"

  /** A batch whose last row binds a NULL to the `not null` column: the
      error is re-raised and no row of the batch is left behind. */
  lemma RejectedRowRollsBackBatch(db: Db)
    requires Valid(db) && !db.config.readonly && db.conn.Open?
    ensures var r := TransactionalPreparedStatement(db, NotNull, InsertMessage, [["1", "Hello"], ["2", "World"], ["5", "NULL"]]);
            && r.result == Err(RunFailed(InsertMessage))
            && r.state == db
  {
    var params := [["1", "Hello"], ["2", "World"], ["5", "NULL"]];
    var runs := [Run(InsertMessage, params[0]), Run(InsertMessage, params[1]), Run(InsertMessage, params[2])];
    var s := db.file.value;
    var s1 := s.(applied := s.applied + [runs[0]]);
    var s2 := s1.(applied := s1.applied + [runs[1]]);
    assert Bound(InsertMessage, params) == runs;
    assert "NULL" !in params[0] && "NULL" !in params[1] && "NULL" in params[2];
    assert RunAll(s, NotNull, runs) == RunAll(s1, NotNull, runs[1..]);
    assert RunAll(s1, NotNull, runs[1..]) == RunAll(s2, NotNull, runs[2..]);
    assert RunAll(s2, NotNull, runs[2..]).result == Err(RunFailed(InsertMessage));
  }
}

=== FILE: sqlitedb.dfy ===
/** The `SQLiteDb` wrapper: construction with defaults, the connection and
    its two fixed tuning lists, `initDb` (open, tune, patch), the statement
    operations it forwards to the engine, and `closeDb`. */
module SQLiteDb {
  import opened Outcomes
  import opened Database
  import opened Ledger
  import opened Patches
  import opened Backups
  import opened PatchRunner

  /** The constructor's options once defaults are applied. */
  datatype Config = Config(dbPath: string, readonly: bool, patches: Option<seq<Patch>>, backupDir: string)

  /** The constructor. `readonly` defaults to true and `backupPath` to the
      platform's temporary directory; in read-only mode any configured
      patches are dropped (with a log line, not an error). */
  function Construct(dbPath: string, readonly: Option<bool>, patches: Option<seq<Patch>>,
                     backupPath: Option<string>, tmpDir: string): (c: Config)
    ensures c.dbPath == dbPath
    ensures c.readonly <==> readonly != Some(false)
    ensures c.readonly ==> c.patches == None
    ensures !c.readonly ==> c.patches == patches
    ensures c.backupDir == (if backupPath.Some? then backupPath.value else tmpDir)
  {
    var ro := match readonly case Some(b) => b case None => true;
    var dir := match backupPath case Some(p) => p case None => tmpDir;
    if ro && patches.Some? then Config(dbPath, ro, None, dir)
    else Config(dbPath, ro, patches, dir)
  }

  /** The wrapper's connection: not yet opened (`this.db` undefined), open,
      or closed. */
  datatype Conn = Unset | Open | Closed

  /** One wrapper object and what it sees on disk: the database file at its
      path (absent or present), the live backups, and the tuning directives
      issued on its current connection. */
  datatype Db = Db(config: Config, conn: Conn, file: Option<Store>, backups: BackupSet, pragmas: seq<string>)

  /** An open connection has a file under it, and the file is a database. */
  predicate Valid(db: Db) {
    && (db.conn.Open? ==> db.file.Some?)
    && (db.file.Some? ==> Wf(db.file.value))
  }

  /** A freshly constructed wrapper over the given disk. */
  function New(config: Config, file: Option<Store>, backups: BackupSet): Db {
    Db(config, Unset, file, backups, [])
  }

  const ReadonlyPragmas: seq<string> := ["cache_size=-640000", "journal_mode=OFF"]

  const ReadWritePragmas: seq<string> :=
    ["synchronous=OFF", "count_changes=OFF", "journal_mode=MEMORY",
     "temp_store=MEMORY", "cache_size=-640000", "foreign_keys=ON"]

  /** The tuning list `initDb` issues: one of two fixed lists by mode. */
  function Pragmas(readonly: bool): seq<string> {
    if readonly then ReadonlyPragmas else ReadWritePragmas
  }

  /** `initDbConn`: in read-only mode a missing file is an error; otherwise
      connect, which in read-write mode creates a missing file. */
  function InitDbConn(db: Db): (r: Step<Db, ()>)
    ensures r.result.Err? <==> db.config.readonly && db.file.None?
    ensures r.result.Err? ==> r.state == db
    ensures r.result.Ok? ==>
              && r.state.conn.Open?
              && r.state.file.Some?
              && (db.file.Some? ==> r.state.file == db.file)
              && (db.file.None? ==> r.state.file == Some(EmptyStore))
              && r.state.config == db.config && r.state.backups == db.backups
  {
    if db.config.readonly && db.file.None? then Step(db, Err(ReadonlyDbMissing))
    else
      var file := match db.file case Some(s) => s case None => EmptyStore;
      Step(db.(conn := Open, file := Some(file)), Ok(()))
  }

  /** `initDb`: connect, issue the mode's tuning list, and run the patch
      runner when patches are configured. Any failure is re-raised, with
      whatever happened before it left in place. */
  function InitDb(db: Db, eng: Engine, fs: FileSystem): (r: Step<Db, ()>)
    requires Valid(db)
    ensures Valid(r.state)
    ensures r.state.config == db.config
    ensures db.config.readonly && db.file.None? ==> r == Step(db, Err(ReadonlyDbMissing))
    ensures !(db.config.readonly && db.file.None?) ==>
              r.state.conn.Open? && r.state.pragmas == Pragmas(db.config.readonly)
    ensures db.file.Some? ==> db.file.value.ledger <= r.state.file.value.ledger
    ensures db.config.patches.None? && db.file.Some? ==> r.state.file == db.file && r.state.backups == db.backups
    ensures db.config.patches.None? && !(db.config.readonly && db.file.None?) ==> r.result.Ok?
  {
    var c := InitDbConn(db);
    if c.result.Err? then c
    else
      var tuned := c.state.(pragmas := Pragmas(db.config.readonly));
      match db.config.patches
      case None => Step(tuned, Ok(()))
      case Some(ps) =>
        var cp := CheckPatches(Disk(tuned.file.value, tuned.backups), ps, db.config.readonly, db.config.backupDir, eng, fs);
        Step(tuned.(file := Some(cp.state.db), backups := cp.state.backups), cp.result)
  }

  /** `runStatement` (and `insertRow`, which forwards to it): refused
      without an open connection, otherwise passed to the engine and any
      failure re-raised. */
  function RunStatement(db: Db, eng: Engine, sql: string, args: seq<string>): (r: Step<Db, ()>)
    requires Valid(db)
    ensures Valid(r.state)
    ensures !db.conn.Open? ==> r == Step(db, Err(NotConnected))
    ensures db.conn.Open? ==> (r.result.Ok? <==> eng.prepares(sql) && !eng.rejects(db.file.value.applied, Run(sql, args)))
    ensures db.conn.Open? && r.result.Err? ==> Refused(eng, db.file.value.applied, Run(sql, args), r.result.error)
    ensures r.result.Err? ==> r.state == db
    ensures r.result.Ok? ==> r.state == db.(file := Some(db.file.value.(applied := db.file.value.applied + [Run(sql, args)])))
  {
    if !db.conn.Open? then Step(db, Err(NotConnected))
    else
      var st := Database.RunStatement(db.file.value, eng, Run(sql, args));
      Step(db.(file := Some(st.state)), st.result)
  }

  /** `transactionalPreparedStatement`: refused in read-only mode before
      anything else; otherwise one statement is run for every parameter
      set inside one transaction, all kept or none. */
  function TransactionalPreparedStatement(db: Db, eng: Engine, sql: string, params: seq<seq<string>>): (r: Step<Db, ()>)
    requires Valid(db)
    ensures Valid(r.state)
    ensures db.config.readonly ==> r == Step(db, Err(ReadonlyModify))
    ensures !db.config.readonly && !db.conn.Open? ==> r == Step(db, Err(NotConnected))
    ensures !db.config.readonly && db.conn.Open? ==>
              (r.result.Ok? <==> eng.prepares(sql) && AcceptsAll(eng, db.file.value.applied, Bound(sql, params)))
    ensures !db.config.readonly && db.conn.Open? && r.result.Err? ==>
              r.result.error == (if eng.prepares(sql) then RunFailed(sql) else PrepareFailed(sql))
    ensures r.result.Err? ==> r.state == db
    ensures r.result.Ok? ==>
              && !db.config.readonly && db.conn.Open?
              && r.state == db.(file := Some(db.file.value.(applied := db.file.value.applied + Bound(sql, params))))
  {
    if db.config.readonly then Step(db, Err(ReadonlyModify))
    else if !db.conn.Open? then Step(db, Err(NotConnected))
    else
      var tx := Transaction(db.file.value, eng, sql, params);
      Step(db.(file := Some(tx.state)), tx.result)
  }

  /** The public `getPatchVersion`: refused without an open connection,
      otherwise the ledger read (creating the ledger when it is missing). */
  function PatchVersion(db: Db): (r: Step<Db, int>)
    requires Valid(db)
    ensures Valid(r.state)
    ensures !db.conn.Open? ==> r == Step(db, Err(NotConnected))
    ensures db.conn.Open? && HasLedgerTable(db.file.value.tables) ==> r == Step(db, Ok(MaxVersion(db.file.value.ledger)))
    ensures db.conn.Open? && !HasLedgerTable(db.file.value.tables) ==>
              r.result == (if db.config.readonly then Err(ReadonlyEngine) else Ok(0))
    ensures db.conn.Open? && !HasLedgerTable(db.file.value.tables) && !db.config.readonly ==>
              r.state.file.Some? && r.state.file.value.ledger == [0] && HasLedgerTable(r.state.file.value.tables)
    ensures r.state.backups == db.backups && r.state.conn == db.conn
    ensures r.result.Ok? ==> r.state.file.Some? && r.result.value == MaxVersion(r.state.file.value.ledger)
    ensures db.file.Some? ==> db.file.value.ledger <= r.state.file.value.ledger
  {
    if !db.conn.Open? then Step(db, Err(NotConnected))
    else
      var gv := GetPatchVersion(db.file.value, db.config.readonly);
      Step(db.(file := Some(gv.state)), gv.result)
  }

  /** `closeDb`: closing a wrapper that never connected fails; closing an
      open or already closed one leaves it closed. */
  function CloseDb(db: Db): (r: Step<Db, ()>)
    requires Valid(db)
    ensures Valid(r.state)
    ensures r.result.Err? <==> db.conn.Unset?
    ensures r.result.Err? ==> r.state == db
    ensures r.result.Ok? ==> r.state == db.(conn := Closed)
  {
    if db.conn.Unset? then Step(db, Err(NotConnected))
    else Step(db.(conn := Closed), Ok(()))
  }

  /** A wrapper constructed read-only never patches: whatever patches are
      passed, `initDb` leaves the file and the backups untouched, and it
      succeeds exactly when the file exists. */
  lemma ReadonlyInitNeverWrites(dbPath: string, readonly: Option<bool>, patches: Option<seq<Patch>>,
                                backupPath: Option<string>, tmpDir: string,
                                file: Option<Store>, backups: BackupSet, eng: Engine, fs: FileSystem)
    requires readonly != Some(false)
    requires file.Some? ==> Wf(file.value)
    ensures var db := New(Construct(dbPath, readonly, patches, backupPath, tmpDir), file, backups);
            var r := InitDb(db, eng, fs);
            && r.state.file == file
            && r.state.backups == backups
            && (r.result.Ok? <==> file.Some?)
  {
  }

  /** Running `initDb` again on a wrapper whose `initDb` succeeded changes
      nothing and succeeds, whatever the engine and the file system would
      do: no patch is pending, so no backup is taken and nothing runs. */
  lemma InitDbTwiceIsNoOp(db: Db, eng: Engine, fs: FileSystem, eng': Engine, fs': FileSystem)
    requires Valid(db)
    requires InitDb(db, eng, fs).result.Ok?
    ensures var once := InitDb(db, eng, fs).state;
            InitDb(once, eng', fs') == Step(once, Ok(()))
  {
    var once := InitDb(db, eng, fs).state;
    var c := InitDbConn(db);
    var tuned := c.state.(pragmas := Pragmas(db.config.readonly));
    assert InitDbConn(once).state == once.(conn := Open);
    if db.config.patches.Some? {
      var ps := db.config.patches.value;
      var d := Disk(tuned.file.value, tuned.backups);
      assert Wf(d.db);
      CheckPatchesRerunIsNoOp(d, ps, db.config.readonly, db.config.backupDir, eng, fs, eng', fs');
    }
  }

  /** After a successful `initDb` with patches configured, the installed
      version is the newest configured version when some patch was newer
      than the version found on opening, and that version otherwise. */
  /** Opening never fails once past the read-only check, so a failed
      `initDb` over a file it could open is a failed patch run: patches were
      configured, and the error, the file and the backups are exactly what
      `checkPatches` raised and left (see `PatchRunner.CheckPatchesFailed`
      for its three cases). */
  lemma InitDbFailureIsRunnerFailure(db: Db, eng: Engine, fs: FileSystem)
    requires Valid(db)
    requires !(db.config.readonly && db.file.None?)
    requires InitDb(db, eng, fs).result.Err?
    ensures db.config.patches.Some?
    ensures var c := InitDbConn(db).state;
            var cp := CheckPatches(Disk(c.file.value, c.backups), db.config.patches.value, db.config.readonly, db.config.backupDir, eng, fs);
            var r := InitDb(db, eng, fs);
            && r.result == cp.result
            && r.state.file == Some(cp.state.db)
            && r.state.backups == cp.state.backups
  {
  }

  /** A read-write `initDb` with patches succeeds when the configured
      versions are pairwise distinct, the file system copies and unlinks,
      and the engine accepts the pending statements of the opened file in
      order. */
  lemma InitDbAccepted(db: Db, eng: Engine, fs: FileSystem)
    requires Valid(db) && !db.config.readonly && db.config.patches.Some?
    requires fs.canCopy && fs.canUnlink
    requires DistinctVersions(db.config.patches.value)
    requires var s := InitDbConn(db).state.file.value;
             AcceptsAll(eng, s.applied, Script(Pending(db.config.patches.value, MaxVersion(s.ledger))))
    ensures InitDb(db, eng, fs).result.Ok?
  {
    var c := InitDbConn(db);
    CheckPatchesAccepted(Disk(c.state.file.value, c.state.backups), db.config.patches.value, db.config.backupDir, eng, fs);
  }

  lemma InitDbReachesNewest(db: Db, eng: Engine, fs: FileSystem)
    requires Valid(db)
    requires db.config.patches.Some?
    requires InitDb(db, eng, fs).result.Ok?
    ensures var ps := db.config.patches.value;
            var found := MaxVersion(GetPatchVersion(InitDbConn(db).state.file.value, db.config.readonly).state.ledger);
            var installed := MaxVersion(InitDb(db, eng, fs).state.file.value.ledger);
            && ((forall p :: p in ps ==> p.version <= found) ==> installed == found)
            && (|ps| > 0 && (exists p :: p in ps && p.version > found) ==> installed == MaxOf(Versions(ps)))
  {
    var c := InitDbConn(db);
    var tuned := c.state.(pragmas := Pragmas(db.config.readonly));
    var d := Disk(tuned.file.value, tuned.backups);
    CheckPatchesReachesNewest(d, db.config.patches.value, db.config.readonly, db.config.backupDir, eng, fs);
  }

  /** A closed wrapper refuses every statement and ledger operation and
      changes nothing. */
  lemma ClosedRefusesOperations(db: Db, eng: Engine, sql: string, args: seq<string>, params: seq<seq<string>>)
    requires Valid(db)
    requires CloseDb(db).result.Ok?
    ensures var closed := CloseDb(db).state;
            && RunStatement(closed, eng, sql, args) == Step(closed, Err(NotConnected))
            && PatchVersion(closed) == Step(closed, Err(NotConnected))
            && TransactionalPreparedStatement(closed, eng, sql, params).result.Err?
            && TransactionalPreparedStatement(closed, eng, sql, params).state == closed
  {
  }
}
